=== FILE: README.md ===
# piggia thermostat core, modelled in Dafny

piggia drives a heater relay from a DS18B20 one-wire thermometer on a
Raspberry Pi, and shows numbers on a serial seven-segment display. This
project models the three pieces of pure logic inside that code. They are
written as functions over plain values, and properties are proved about
them:

- **Thermometer** (`thermometer.dfy`) covers the DS18B20 driver:
  - id discovery from the bus's device directory listing, which keeps the
    `28-` entries and applies `lstrip('28-')` to each;
  - the constructor's choice of a thermometer and its device-file path;
  - the parsing of the two-line `w1_slave` text: the `YES` verdict on line
    1, and the millidegree reading after `=` on line 2.

  The listing and the file's text are inputs. A missing file is `None`.
  Readings are integer millidegrees, and `Celsius(m)` is the exact real
  `m / 1000`.
- **SevenSegment** (`seven_segment.dfy`) covers `send_int` and
  `send_float`. Each maps the decimal text of a number to the SPI frames it
  sends and the exception it ends with:
  - `Xfer([CLEAR])`, then `WriteBytes(payload)`;
  - `BadNumberError` before any frame is sent;
  - `ValueError` from `int(c)` after the clear frame.
- **Controller** (`controller.dfy`) covers `basic_thermostat`. It maps the
  sequence of readings it takes to the sequence of relay levels it
  writes. A "not ready" reading (`None`) ends the loop with the
  `TypeError` of comparing `None` with the set point.

Python's string and integer builtins that this logic relies on are
modelled in two supporting modules:

- **PyStr** (`py_str.dfy`) covers `str.isspace`, `startswith`, `lstrip`,
  `rstrip`, `strip`, `split()`, `split(sep)` and `readlines()` on a file
  opened in text mode (universal newlines).
- **PyInt** (`py_int.dfy`) covers `int(str)` and `str(int)`.

`Results` (`results.dfy`) holds the `Option` and `Result` datatypes.

Where the code disagrees with its docstrings, the model follows the code:

- The default thermometer is element 0 of the directory listing. It is not
  the lexicographically first thermometer.
- `lstrip('28-')` removes a character set, not a prefix.

## Model

| member | source | states |
|---|---|---|
| Thermometer.KeepFamily | thermometer.py:24 | the kept entries are exactly the listing's entries that start with "28-", and every kept entry starts with it |
| Thermometer.KeepFamilyAppend | thermometer.py:24 | filtering distributes over concatenation, so the listing's relative order is kept |
| Thermometer.KeepFamilyFirst | thermometer.py:24 | the first kept entry is the first "28-" entry of the listing |
| Thermometer.GetThermometerIds | thermometer.py:23-25 | one id per kept entry, in order; each id is its entry with the longest leading run of '2', '8' and '-' removed, so no id starts with one of them |
| Thermometer.GetThermometerIdsAppend | thermometer.py:23-25 | the ids of a concatenated listing are the ids of its parts, concatenated |
| Thermometer.IdRestoresEntryIff | thermometer.py:25 | "28-" + id gives back the directory name if and only if the serial after "28-" is empty or does not start with '2', '8' or '-' |
| Thermometer.GetThermometerIdsExact | thermometer.py:32-33 | the intended ids: "28-" + id is exactly the kept entry, for every id |
| Thermometer.ExactIdInListing | thermometer.py:32-33 | every intended id names a directory that is in the listing |
| Thermometer.DeviceIdOfFile | thermometer.py:48-49 | the device path built on BASE_DIR (line 20) names the id it was built from, so different ids give different paths |
| Thermometer.DeviceFileOfId | thermometer.py:48-49 | every path of the shape "/sys/bus/w1/devices//28-" + id + "/w1_slave" is the device path of that id |
| Thermometer.DeviceFile | thermometer.py:48-49 | the device path is "/sys/bus/w1/devices//28-", then the id, then "/w1_slave" |
| Thermometer.New | thermometer.py:39-49 | NoThermometerError if and only if no id is given and no "28-" entry exists; a given id is used verbatim; the device file is the path built from the id and gives the id back |
| Thermometer.NewPicksFirstListed | thermometer.py:39-44 | with no id given, the id is the first "28-" entry in listing order with lstrip('28-') applied; nothing is sorted |
| Thermometer.LStripMisreadsSerial | thermometer.py:25 | for the listing ["28-8000001f2a3b"] the constructor picks id "000001f2a3b", whose "28-" directory is not in the listing |
| Thermometer.NewMisreadsSerial | thermometer.py:25 | for every serial that itself starts with '2', '8' or '-', the constructor's id is shorter than the serial, so "28-" + id is not the listed directory |
| Thermometer.ListingOrderIsNotLexOrder | thermometer.py:33-44 | whenever the first of two listed thermometers is not the lexicographically first, the constructor as written picks it and the corrected constructor picks the other |
| Thermometer.FirstListedIsNotLeast | thermometer.py:33-44 | for a two-thermometer listing, the constructor picks the first listed id while the other id comes first lexicographically |
| Thermometer.LexMin | thermometer.py:33-34 | the result is one of the ids and is lexicographically at most every id |
| Thermometer.LexLeIff | thermometer.py:33-34 | the order used for "lexicographical" is Python's str ordering: a is at most b exactly when a is a prefix of b or has the smaller character at the first position where they differ |
| Thermometer.NewCorrected | thermometer.py:27-49 | as New, but with no id given the id is the lexicographically least of the intended ids, and "28-" + id is in the listing |
| Thermometer.ReadyFlag | thermometer.py:64 | line 1 has no last word (an IndexError) exactly when it strips to "" |
| Thermometer.ReadyFlagNoneIff | thermometer.py:64 | the verdict word is missing (an IndexError) exactly when line 1 is blank |
| Thermometer.ReadyFlagYesIff | thermometer.py:64 | the verdict is YES if and only if the stripped line 1 ends with the separate word "YES" |
| Thermometer.ReadyFlagLastWord | thermometer.py:64 | when the stripped line 1 ends with a word, that word alone decides the verdict |
| Thermometer.SecondField | thermometer.py:67 | the field is missing (an IndexError) exactly when the stripped line 2 has no '=', and a field never contains '=' |
| Thermometer.SecondFieldBetween | thermometer.py:67 | the field is the text between the first '=' and the next '=' or the end of the line |
| Thermometer.LineTwoMilli | thermometer.py:67 | IndexError exactly when line 2 has no '='; otherwise ValueError, or exactly the value int() gives for the text after the first '=' |
| Thermometer.Celsius | thermometer.py:67 | dividing by 10**3 gives the real c with c * 1000 equal to the millidegrees |
| Thermometer.FileLines | thermometer.py:59-60 | the lines of a file opened with 'r' concatenate back to its text with every "\r\n" and lone '\r' read as '\n'; each line is non-empty with its only '\n' at its end, every line but the last ends in '\n', and there are no lines only for an empty file |
| Thermometer.GetTemperature | thermometer.py:58-67 | NoThermometerError exactly when the file is missing; IndexError for an empty file, for a blank line 1, and for a YES verdict with no line 2; "not ready" exactly when line 1's last word exists and is not YES; with a YES verdict and a line 2, exactly the error line 2 gives (IndexError or ValueError) or exactly its reading |
| Thermometer.NotReadyIgnoresRest | thermometer.py:64-65 | a line 1 without a YES verdict gives "not ready", whatever follows it |
| Thermometer.SlaveTextReading | thermometer.py:58-67 | a device file with a good CRC reads back as its recorded millidegrees, and one with a bad CRC as "not ready" |
| SevenSegment.IntBytes | piggia/seven_segment.py:27-28 | int(c) succeeds for every character exactly when all are digits, and gives their values in order |
| SevenSegment.SendInt | piggia/seven_segment.py:21-29 | BadNumberError with no frame sent if and only if the text is longer than 4; success if and only if the text is at most 4 digits, sending CLEAR and then the digit values; otherwise CLEAR, then ValueError |
| SevenSegment.SendIntRoundTrip | piggia/seven_segment.py:21-29 | reading the digits back gives the text exactly for texts of at most 4 digits, and every readable transmission is the one send_int produces for its text |
| SevenSegment.DigitValuesInjective | piggia/seven_segment.py:27-28 | different digit texts give different payloads |
| SevenSegment.SendIntOfInt | piggia/seven_segment.py:21-29 | for an int n, 0..9999 are shown and read back as n, -999..-1 clear the display and then fail, and every other n is refused before any frame |
| SevenSegment.FloatPayload | piggia/seven_segment.py:38-47 | empty text sends nothing; when the loop succeeds on non-empty text, the text starts with '.' or a digit and the payload starts with DECIMAL or that digit's value |
| SevenSegment.FloatPayloadSomeIff | piggia/seven_segment.py:38-47 | the loop fails exactly when a character it reads before stopping is neither a digit nor '.' |
| SevenSegment.FloatPayloadDecodes | piggia/seven_segment.py:38-47 | the payload decodes back to the text the loop read: digit values as digits, and DECIMAL plus the bit of the last digit as '.' |
| SevenSegment.FloatPayloadFills | piggia/seven_segment.py:42-47 | digits that fill the remaining positions are all that is sent; what follows them is never read |
| SevenSegment.FloatPayloadDigits | piggia/seven_segment.py:42-44 | digits that leave positions free are sent as their values, each filling one position, and the loop carries on |
| SevenSegment.FloatPayloadPointStep | piggia/seven_segment.py:39-41 | a '.' after k digits sends exactly DECIMAL and then 2**(k-1) |
| SevenSegment.FullIntegerPartHasNoPoint | piggia/seven_segment.py:46-47 | a four-digit integer part sends exactly those four digit values and no DECIMAL marker |
| SevenSegment.FloatPayloadWithPoint | piggia/seven_segment.py:38-47 | for 1 to 3 integer digits, the payload is those digits, then DECIMAL and 2**(digits-1), then the fraction digits that fit in 4 positions |
| SevenSegment.FractionPayload | piggia/seven_segment.py:42-47 | after k integer digits and the point, exactly the fraction digits that fit in the 4-k free positions are sent, as their values |
| SevenSegment.SendFloat | piggia/seven_segment.py:31-48 | BadNumberError with no frame if and only if the part before the first '.' is longer than 4; otherwise CLEAR comes first, and the call succeeds exactly when the examined text holds only digits and '.', sending a payload that decodes to it |
| Controller.Decide | controller.py:15-18 | HIGH if and only if the reading is strictly below the set point |
| Controller.AtSetPointIsLow | controller.py:15-18 | a reading equal to the set point drives the relay LOW |
| Controller.DecideMonotone | controller.py:15-18 | the rule is a threshold: a higher reading never switches on when a lower one switches off |
| Controller.BasicThermostat | controller.py:12-19 | one write per reading, each decided from that reading alone; the run ends with an error exactly when some reading is None, and it stops at the first one |
| Controller.ThermostatAppend | controller.py:12-19 | no state is carried between readings: a run over a then b is the run over a, continued by the run over b unless a ended it |
| PyInt.ParseInt | thermometer.py:67 | int() succeeds exactly when the text, without the space int() skips around it, is an optional sign and then digits that single underscores may separate; a negative value needs a leading '-' |
| PyInt.IntToString | piggia/seven_segment.py:23 | str(n) is non-empty, starts with '-' exactly when n is negative, and holds only digits after that sign |
| PyInt.ParseIntRoundTrip | thermometer.py:67 | int() of the decimal text of any integer gives that integer back |
| PyInt.ParseIntIgnoresSurroundingWhitespace | thermometer.py:67 | int() ignores the space it skips around the number: whitespace other than U+001C to U+001F |
| PyInt.IntSpaceIff | thermometer.py:67 | the space int() skips is the whitespace of isspace() except U+001C to U+001F |
| PyInt.ParseIntRejectsSeparator | thermometer.py:67 | digits followed by one of U+001C to U+001F are not a number for int(), although isspace() counts that character as whitespace |
| PyInt.ParseIntPlusSign | thermometer.py:67 | for text with no surrounding space and no sign of its own, a leading '+' does not change what int() gives |
| PyInt.ParseIntMinusSign | thermometer.py:67 | for text with no surrounding space and no sign of its own, a leading '-' is accepted exactly when the text after it is a number, and negates its value |
| PyInt.ParseIntLeadingZero | thermometer.py:67 | a leading zero before digits (and single underscores) does not change the value int() gives |
| PyInt.ValueOfLeadingZero | thermometer.py:67 | a leading zero does not change the value of a digit string |
| PyInt.DropUnderscoresAtSeparator | thermometer.py:67 | the underscore between two digit groups is dropped and nothing else changes |
| PyInt.ParseIntUnderscore | thermometer.py:67 | two digit groups (digits with single underscores between them) joined by one underscore are digit groups, and int() gives the value of all their digits run together |
| PyInt.ParseIntUnderscoreDigits | thermometer.py:67 | for two non-empty underscore-free digit strings, int() with one underscore between them gives the same value as int() of them run together |
| PyInt.IntOfCharAgrees | piggia/seven_segment.py:43 | int(c) of one character is its value for a digit and an error otherwise |
| PyInt.NatToStringLength | piggia/seven_segment.py:23-24 | the decimal text of n has at most k characters if and only if n < 10**k |
| PyStr.WhitespaceIsSpace | thermometer.py:64 | strip() and split() strip and split on exactly the characters isspace() accepts |
| PyStr.LStripUnique | thermometer.py:25 | lstrip removes exactly the longest leading run of the given characters |
| PyStr.StripEmptyIff | thermometer.py:64 | strip() gives "" exactly for an all-whitespace line |
| PyStr.SplitRunsAtSeparator | thermometer.py:64 | split() of text joined at a whitespace character is the two splits, concatenated |
| PyStr.SplitRunsLastIff | thermometer.py:64 | the last word of split() is w if and only if the text ends with w preceded by whitespace or nothing |
| PyStr.TrailingRunIff | thermometer.py:64 | the last run of non-whitespace in the text is w if and only if the text ends with w preceded by whitespace or nothing |
| PyStr.JoinSplitOn | thermometer.py:67 | joining the pieces of split(sep) with sep gives the text back |
| PyStr.SplitOnJoin | thermometer.py:67 | splitting separator-free pieces joined with sep gives the pieces back |
| PyStr.FirstPieceLonger | piggia/seven_segment.py:33 | the first piece of split(sep) is longer than k exactly when the text has no sep in its first k+1 characters |
| PyStr.ConcatReadLines | thermometer.py:60 | the lines readlines() returns concatenate back to the file's text |
| PyStr.ReadLines | thermometer.py:60 | each line readlines() returns holds one '\n' at most, at its end; every line but the last ends in '\n'; there are no lines only for empty text |
| PyStr.UniversalNewlines | thermometer.py:59-60 | the text a text-mode file gives holds no '\r', and text without '\r' is read unchanged |
| PyStr.UniversalNewlinesCrLf | thermometer.py:59 | a "\r\n" in the file is read as a single '\n' |
| PyStr.UniversalNewlinesLoneCr | thermometer.py:59 | a '\r' not followed by '\n' is read as '\n' |
| PyStr.ReadTwoLines | thermometer.py:60 | a two-line text with a newline after each line reads as those two lines |

## Left out

- Loading the bus modules with `modprobe` (thermometer.py:36-37) is left out. It is process I/O, and a failure there is not the driver's logic.
- `os.listdir` and reading the device file are left out. The listing and the file's text, or `None` for a missing file, are inputs.
- The `main` functions of thermometer.py and controller.py are left out. They poll, print and sleep.
- The infinite `while True` loop of `basic_thermostat` becomes a finite sequence of the readings it takes. The run stops at the first `None`.
- Exceptions that `get_temperature` itself raises inside the controller loop are left out. The controller's input is the readings, in millidegrees.
- GPIO setup, output and cleanup, the yaml configuration, `time.sleep` and `KeyboardInterrupt` handling are left out.
- The SPI device is left out: `spidev` setup, the CLEAR sent by `SevenSegment.__init__`, and `send_byte`. Each `xfer` or `writebytes` call of `send_int` and `send_float` is returned as a `Frame`.
- `str(int_num)` is modelled as `PyInt.IntToString`. `send_int` is modelled on its text.
- `str(float_num)` is left out, because it is floating-point formatting. `SendFloat` takes the text and requires that it does not start with '.', which no `str(float)` result does. A leading '.' would make `2**(digits-1)` the float 0.5, whose effect in `writebytes` is outside the code shown.
- Controller.Decide: compares `m / 1000` with the set point as exact reals. The rounding of `int / 1000` and of the set point to floats is not modelled.
- PyInt.ParseInt: accepts ASCII digits only. It does not accept the other Unicode decimal digits that `int()` takes. Underscores between digits and a sign are modelled. So is the surrounding space `int()` skips: the whitespace of `str.isspace()` except U+001C to U+001F, which `int()` does not skip.
- PyInt.ParseInt: does not model the limit of CPython 3.11 and later on converting between int and decimal text of more than 4300 digits, where int() and str() raise ValueError. So PyInt.ParseIntRoundTrip, PyInt.IntToString and SevenSegment.SendIntOfInt also hold in the model for numbers of 4301 digits or more, where Python raises ValueError instead.
- Thermometer.GetTemperature: does not model the OverflowError that `int(...)/(10**3)` raises when the quotient is beyond the float range (about 1.8e308), for example a line 2 of "t=" followed by 312 nines. The model returns the millidegrees, and `Celsius` divides them exactly, however large.
- Thermometer.Celsius: divides exactly. Python's `/` at thermometer.py:67 gives the float nearest to m/1000, which for most readings is not m/1000 itself (a reading of 1 gives the float nearest 0.001); float rounding is not modelled.
- Decoding the device file's bytes to text is left out. The file is taken as text.
- `app.py` (web pages and database), `static/temp_chart.js` (browser chart) and `setup.py` (packaging) are not part of this model.

## Findings

| source | as written | input that shows it | evidently intended | confidence | as-written member | corrected member |
|---|---|---|---|---|---|---|
| thermometer.py:25 | `x.lstrip('28-')` removes every leading '2', '8' and '-', not the "28-" prefix | a device directory "28-8000001f2a3b" gives id "000001f2a3b", so the device path names "28-000001f2a3b", which does not exist | the id is the directory name without its "28-" prefix, as the docstring at thermometer.py:32-33 says | not executed | Thermometer.NewMisreadsSerial | Thermometer.GetThermometerIdsExact |
| thermometer.py:44 | with no id given, the constructor takes element 0 of the ids in directory-listing order | listing ["28-0516a2795cff", "28-0316a27e4aff"] picks "0516a2795cff", although "0316a27e4aff" comes first lexicographically | the first thermometer in lexicographical order, as the docstring at thermometer.py:33-34 says | not executed | Thermometer.ListingOrderIsNotLexOrder | Thermometer.NewCorrected |

=== FILE: controller.dfy ===
/** The controller's bang-bang thermostat: for each reading, one write to
    the relay pin, HIGH below the set point and LOW otherwise. The GPIO
    calls, the sleep between readings and the configuration file are not
    modelled; the readings taken so far are the input. */
module Controller {
  import opened Results
  import Thermometer
  import opened PyStr

  /** The two levels the relay pin is driven to. */
  datatype Level = Low | High

  /** The relay writes of a run, in order, and whether the run ended with
      the TypeError of comparing a "not ready" (None) reading. */
  datatype Run = Run(writes: seq<Level>, crashed: bool)

  /** The level for one reading in millidegrees: `temp < set_point`, so a
      reading equal to the set point switches the relay off. */
  function Decide(milli: int, setPoint: real): (level: Level)
    ensures level == High <==> (milli as real) < setPoint * 1000.0
  {
    if Thermometer.Celsius(milli) < setPoint then High else Low
  }

  /** The rule is a threshold: any reading at or above one that switches
      the relay off switches it off too, and any reading at or below one
      that switches it on switches it on. */
  lemma DecideMonotone(a: int, b: int, setPoint: real)
    requires a <= b
    ensures Decide(b, setPoint) == High ==> Decide(a, setPoint) == High
    ensures Decide(a, setPoint) == Low ==> Decide(b, setPoint) == Low
  {
  }

  /** A reading exactly at the set point drives the relay LOW. */
  lemma AtSetPointIsLow(milli: int)
    ensures Decide(milli, Thermometer.Celsius(milli)) == Low
  {
  }

  /** basic_thermostat over the readings it takes, in order: one write per
      reading until the first None, which ends the loop with a TypeError. */
  function BasicThermostat(readings: seq<Option<int>>, setPoint: real): (run: Run)
    ensures |run.writes| <= |readings|
    ensures forall i :: 0 <= i < |run.writes| ==>
              readings[i].Some? && run.writes[i] == Decide(readings[i].value, setPoint)
    ensures run.crashed <==> exists i :: 0 <= i < |readings| && readings[i].None?
    ensures run.crashed ==> readings[|run.writes|].None?
    ensures !run.crashed ==> |run.writes| == |readings|
  {
    if readings == [] then Run([], false)
    else
      match readings[0]
      case None => Run([], true)
      case Some(milli) =>
        var rest := BasicThermostat(readings[1..], setPoint);
        assert forall i :: 1 <= i < |readings| ==> readings[i] == readings[1..][i - 1];
        Run([Decide(milli, setPoint)] + rest.writes, rest.crashed)
  }

  /** One pass of the loop: the first reading decides the first write, or
      ends the run. */
  lemma ThermostatStep(s: seq<Option<int>>, setPoint: real)
    requires s != []
    ensures BasicThermostat(s, setPoint) ==
              if s[0].None? then Run([], true)
              else Run([Decide(s[0].value, setPoint)] + BasicThermostat(s[1..], setPoint).writes,
                       BasicThermostat(s[1..], setPoint).crashed)
  {
  }

  /** The thermostat keeps no state between readings: a run over `a` then
      `b` is the run over `a`, continued by the run over `b` unless `a`
      already ended it. */
  lemma {:induction false} ThermostatAppend(a: seq<Option<int>>, b: seq<Option<int>>, setPoint: real)
    ensures var ra := BasicThermostat(a, setPoint);
            var rb := BasicThermostat(b, setPoint);
            BasicThermostat(a + b, setPoint) ==
              if ra.crashed then ra else Run(ra.writes + rb.writes, rb.crashed)
  {
    if a == [] {
      assert a + b == b;
    } else {
      var ab := a + b;
      assert ab[0] == a[0] && ab[1..] == a[1..] + b;
      ThermostatStep(ab, setPoint);
      ThermostatStep(a, setPoint);
      ThermostatAppend(a[1..], b, setPoint);
      if a[0].Some? {
        var ra := BasicThermostat(a[1..], setPoint);
        var rb := BasicThermostat(b, setPoint);
        ConcatAssoc([Decide(a[0].value, setPoint)], ra.writes, rb.writes);
      }
    }
  }
}

=== FILE: py_int.dfy ===
/** Python's conversions between `int` and decimal text: str(n), and int(s)
    for a base-10 string (surrounding space, an optional sign, ASCII digits
    with single underscores between them). */
module PyInt {
  import opened Results
  import opened PyStr

  predicate IsDigit(c: char) {
    '0' <= c <= '9'
  }

  function DigitValue(c: char): (d: nat)
    requires IsDigit(c)
    ensures d < 10
  {
    (c as int) - ('0' as int)
  }

  function DigitChar(d: nat): (c: char)
    requires d < 10
    ensures IsDigit(c) && DigitValue(c) == d
  {
    (('0' as int) + d) as char
  }

  predicate AllDigits(s: string) {
    forall i :: 0 <= i < |s| ==> IsDigit(s[i])
  }

  /** The number a string of decimal digits denotes, most significant first. */
  function ValueOf(ds: string): nat
    requires AllDigits(ds)
  {
    if ds == [] then 0 else ValueOf(ds[..|ds| - 1]) * 10 + DigitValue(ds[|ds| - 1])
  }

  /** str(n) for a non-negative int: its decimal digits, without leading zeros. */
  function NatToString(n: nat): (s: string)
    ensures s != [] && AllDigits(s)
    ensures ValueOf(s) == n
    ensures s[0] == '0' ==> s == "0"
  {
    if n < 10 then [DigitChar(n)]
    else
      var s := NatToString(n / 10) + [DigitChar(n % 10)];
      assert s[..|s| - 1] == NatToString(n / 10);
      s
  }

  /** A non-negative number prints in at most `k` digits exactly when it is
      below 10^k. */
  lemma {:induction false} NatToStringLength(n: nat, k: nat)
    requires k >= 1
    ensures |NatToString(n)| <= k <==> n < Pow10(k)
    decreases n
  {
    if n >= 10 {
      if k == 1 {
        assert |NatToString(n)| >= 2;
      } else {
        NatToStringLength(n / 10, k - 1);
      }
    }
  }

  function Pow10(k: nat): (p: nat)
    ensures p >= 1
  {
    if k == 0 then 1 else 10 * Pow10(k - 1)
  }

  /** str(n) for any int: a '-' before the digits of a negative number. */
  function IntToString(n: int): (s: string)
    ensures s != [] && IsDigit(s[|s| - 1])
    ensures n < 0 <==> s[0] == '-'
    ensures forall i :: 0 <= i < |s| ==> IsDigit(s[i]) || (i == 0 && s[i] == '-')
  {
    if n < 0 then "-" + NatToString(-n) else NatToString(n)
  }

  /** str(n) holds only digits and the minus sign. */
  lemma IntToStringChars(n: int, c: char)
    requires !IsDigit(c) && c != '-'
    ensures c !in IntToString(n)
  {
    var s := IntToString(n);
    if n < 0 {
      assert s == "-" + NatToString(-n);
    }
    assert forall i :: 0 <= i < |s| ==> IsDigit(s[i]) || s[i] == '-';
  }

  /** The digit part int() accepts in base 10: digits, where one underscore
      may separate two digits. */
  predicate IsDigitGroups(s: string) {
    && s != []
    && IsDigit(s[0])
    && IsDigit(s[|s| - 1])
    && (forall i :: 0 <= i < |s| ==> IsDigit(s[i]) || s[i] == '_')
    && (forall i :: 0 <= i < |s| - 1 ==> s[i] == '_' ==> s[i + 1] != '_')
  }

  /** The digits of a digit-group string, underscores removed. */
  function DropUnderscores(s: string): (ds: string)
    requires forall i :: 0 <= i < |s| ==> IsDigit(s[i]) || s[i] == '_'
    ensures AllDigits(ds)
    ensures AllDigits(s) ==> ds == s
  {
    if s == [] then []
    else if s[0] == '_' then DropUnderscores(s[1..])
    else [s[0]] + DropUnderscores(s[1..])
  }

  /** The characters int() skips around a number. CPython turns every
      non-ASCII str.isspace() character into a space and then skips ASCII
      whitespace, so the ASCII separators U+001C..U+001F, which
      str.isspace() accepts, are not skipped. */
  const IntSpace: set<char> := Whitespace - {'\U{001C}', '\U{001D}', '\U{001E}', '\U{001F}'}

  /** IntSpace is str.isspace() without the four ASCII separators. */
  lemma IntSpaceIff(c: char)
    ensures c in IntSpace <==> IsSpace(c) && !('\U{001C}' <= c <= '\U{001F}')
  {
    WhitespaceIsSpace(c);
  }

  /** The text int() accepts once the surrounding space is gone: an optional
      sign, then digit groups. */
  predicate IsIntLiteral(t: string) {
    || IsDigitGroups(t)
    || (t != [] && (t[0] == '-' || t[0] == '+') && IsDigitGroups(t[1..]))
  }

  /** int(s) in base 10: None stands for the ValueError Python raises. */
  function ParseInt(s: string): (v: Option<int>)
    ensures v.Some? <==> IsIntLiteral(StripChars(s, IntSpace))
    ensures v.Some? && v.value < 0 ==> StripChars(s, IntSpace)[0] == '-'
  {
    ParseSigned(StripChars(s, IntSpace))
  }

  /** int() on text already stripped of surrounding whitespace: an optional
      sign, then digit groups. */
  function ParseSigned(t: string): Option<int> {
    if t != [] && (t[0] == '-' || t[0] == '+') then
      var body := t[1..];
      if IsDigitGroups(body) then
        var v: int := ValueOf(DropUnderscores(body));
        Some(if t[0] == '-' then -v else v)
      else None
    else if IsDigitGroups(t) then Some(ValueOf(DropUnderscores(t)))
    else None
  }

  /** int(str(n)) == n for every int. */
  lemma ParseIntRoundTrip(n: int)
    ensures ParseInt(IntToString(n)) == Some(n)
  {
    var s := IntToString(n);
    NotSpace(s[0]);
    NotSpace(s[|s| - 1]);
    StripUnchanged(s, IntSpace);
    if n < 0 {
      assert s[1..] == NatToString(-n);
      ParseNegative(s);
    } else {
      ParseUnsigned(NatToString(n));
    }
  }

  /** Digits and the signs are not whitespace. */
  lemma NotSpace(c: char)
    requires IsDigit(c) || c == '-' || c == '+'
    ensures c !in Whitespace && c !in IntSpace
  {
  }

  /** A digit string is a digit-group string without underscores. */
  lemma DigitsAreGroups(ds: string)
    requires ds != [] && AllDigits(ds)
    ensures IsDigitGroups(ds) && DropUnderscores(ds) == ds
  {
  }

  lemma ParseUnsigned(ds: string)
    requires ds != [] && AllDigits(ds)
    ensures ParseSigned(ds) == Some(ValueOf(ds) as int)
  {
    DigitsAreGroups(ds);
  }

  lemma ParseNegative(t: string)
    requires |t| >= 2 && t[0] == '-' && AllDigits(t[1..])
    ensures ParseSigned(t) == Some(-(ValueOf(t[1..]) as int))
  {
    DigitsAreGroups(t[1..]);
  }

  /** int() ignores the space it skips around the number. */
  lemma ParseIntIgnoresSurroundingWhitespace(pre: string, s: string, post: string)
    requires forall i :: 0 <= i < |pre| ==> pre[i] in IntSpace
    requires forall i :: 0 <= i < |post| ==> post[i] in IntSpace
    requires s != [] && s[0] !in IntSpace && s[|s| - 1] !in IntSpace
    ensures ParseInt(pre + s + post) == ParseInt(s)
  {
    StripSurrounded(pre, s, post, IntSpace);
    StripUnchanged(s, IntSpace);
  }

  /** Text that int() needs no stripping for: empty, or neither starting nor
      ending with skipped space, and not starting with a sign. */
  predicate IsBare(t: string) {
    t == [] || (t[0] !in IntSpace && t[|t| - 1] !in IntSpace && t[0] != '+' && t[0] != '-')
  }

  /** A '+' sign does not change the value int() gives. */
  lemma ParseIntPlusSign(t: string)
    requires IsBare(t)
    ensures ParseInt("+" + t) == ParseInt(t)
  {
    var s := "+" + t;
    assert s[0] == '+';
    SignedBare(s, t);
    SignedValue(s, t);
  }

  /** A '-' sign negates the value int() gives, and fails where it fails. */
  lemma ParseIntMinusSign(t: string)
    requires IsBare(t)
    ensures ParseInt("-" + t).Some? <==> ParseInt(t).Some?
    ensures ParseInt(t).Some? ==> ParseInt("-" + t).value == -ParseInt(t).value
  {
    var s := "-" + t;
    assert s[0] == '-';
    SignedBare(s, t);
    SignedValue(s, t);
  }

  /** The value of signed text is the value of its digits, negated for '-'. */
  lemma SignedValue(s: string, t: string)
    requires IsBare(t)
    requires |s| == |t| + 1 && (s[0] == '+' || s[0] == '-') && s[1..] == t
    ensures ParseSigned(s) ==
              if ParseSigned(t).Some? then Some(if s[0] == '-' then -ParseSigned(t).value else ParseSigned(t).value)
              else None
  {
    if IsDigitGroups(t) {
      ParseGroups(t);
      var v: int := ValueOf(DropUnderscores(t));
      assert ParseSigned(s) == Some(if s[0] == '-' then -v else v);
    } else {
      assert t == [] || (t[0] != '+' && t[0] != '-');
      assert ParseSigned(t) == None;
      assert ParseSigned(s) == None;
    }
  }

  /** A sign in front of bare text: both are parsed as they stand. */
  lemma SignedBare(s: string, t: string)
    requires IsBare(t)
    requires |s| == |t| + 1 && (s[0] == '+' || s[0] == '-') && s[1..] == t
    ensures ParseInt(s) == ParseSigned(s)
    ensures ParseInt(t) == ParseSigned(t)
    ensures s[1..] == t
  {
    NotSpace(s[0]);
    assert t != [] ==> s[|s| - 1] == t[|t| - 1];
    ParseIntBare(s);
    if t != [] {
      ParseIntBare(t);
    }
  }

  /** A leading zero does not change the number a digit string denotes. */
  lemma {:induction false} ValueOfLeadingZero(ds: string)
    requires AllDigits(ds)
    ensures ValueOf("0" + ds) == ValueOf(ds)
    decreases |ds|
  {
    var z := "0" + ds;
    if ds == [] {
      assert z[..|z| - 1] == [];
    } else {
      assert z[..|z| - 1] == "0" + ds[..|ds| - 1];
      ValueOfLeadingZero(ds[..|ds| - 1]);
    }
  }

  /** Text that starts and ends with a character int() does not skip is
      parsed as it stands. */
  lemma ParseIntBare(t: string)
    requires t != [] && t[0] !in IntSpace && t[|t| - 1] !in IntSpace
    ensures ParseInt(t) == ParseSigned(t)
  {
    StripUnchanged(t, IntSpace);
  }

  /** A zero in front of digit groups keeps them digit groups. */
  lemma GroupsLeadingZero(t: string)
    requires IsDigitGroups(t)
    ensures IsDigitGroups("0" + t)
    ensures DropUnderscores("0" + t) == "0" + DropUnderscores(t)
  {
    var s := "0" + t;
    assert s[1..] == t;
    forall i | 0 <= i < |s| - 1 && s[i] == '_' ensures s[i + 1] != '_' {
      assert s[i] == t[i - 1] && s[i + 1] == t[i];
    }
    forall i | 0 <= i < |s| ensures IsDigit(s[i]) || s[i] == '_' {
      if i > 0 { assert s[i] == t[i - 1]; }
    }
  }

  /** A leading zero does not change the value int() gives. */
  lemma ParseIntLeadingZero(t: string)
    requires IsDigitGroups(t)
    ensures ParseInt("0" + t) == ParseInt(t)
  {
    var s := "0" + t;
    GroupsLeadingZero(t);
    NotSpace(s[0]);
    NotSpace(s[|s| - 1]);
    ParseIntBare(s);
    NotSpace(t[0]);
    NotSpace(t[|t| - 1]);
    ParseIntBare(t);
    ParseGroups(s);
    ParseGroups(t);
    ValueOfLeadingZero(DropUnderscores(t));
  }

  /** Removing underscores distributes over concatenation. */
  lemma {:induction false} DropUnderscoresAppend(a: string, b: string)
    requires forall i :: 0 <= i < |a| ==> IsDigit(a[i]) || a[i] == '_'
    requires forall i :: 0 <= i < |b| ==> IsDigit(b[i]) || b[i] == '_'
    ensures forall i :: 0 <= i < |a + b| ==> IsDigit((a + b)[i]) || (a + b)[i] == '_'
    ensures DropUnderscores(a + b) == DropUnderscores(a) + DropUnderscores(b)
    decreases |a|
  {
    if a == [] {
      assert a + b == b;
    } else {
      assert (a + b)[1..] == a[1..] + b;
      DropUnderscoresAppend(a[1..], b);
    }
  }

  /** An underscore between two digit groups is dropped. */
  lemma DropUnderscoresAtSeparator(a: string, b: string)
    requires forall i :: 0 <= i < |a| ==> IsDigit(a[i]) || a[i] == '_'
    requires forall i :: 0 <= i < |b| ==> IsDigit(b[i]) || b[i] == '_'
    ensures forall i :: 0 <= i < |a + "_" + b| ==> IsDigit((a + "_" + b)[i]) || (a + "_" + b)[i] == '_'
    ensures DropUnderscores(a + "_" + b) == DropUnderscores(a) + DropUnderscores(b)
  {
    DropUnderscoresAppend(a, "_");
    DropUnderscoresAppend(a + "_", b);
    assert DropUnderscores("_") == [];
    assert DropUnderscores(a) + [] == DropUnderscores(a);
  }

  /** Two digit-group strings joined by one underscore are digit groups. */
  lemma GroupsJoin(a: string, b: string)
    requires IsDigitGroups(a) && IsDigitGroups(b)
    ensures IsDigitGroups(a + "_" + b)
  {
    var s := a + "_" + b;
    forall i | 0 <= i < |s| ensures IsDigit(s[i]) || s[i] == '_' {
      if i < |a| { assert s[i] == a[i]; } else if i > |a| { assert s[i] == b[i - |a| - 1]; }
    }
    forall i | 0 <= i < |s| - 1 && s[i] == '_' ensures s[i + 1] != '_' {
      if i < |a| - 1 {
        assert s[i] == a[i] && s[i + 1] == a[i + 1];
      } else if i >= |a| {
        assert s[i + 1] == b[i - |a|];
      }
    }
    assert s[0] == a[0] && s[|s| - 1] == b[|b| - 1];
  }

  /** Two digit strings joined directly are digits. */
  lemma DigitsJoin(a: string, b: string)
    requires AllDigits(a) && AllDigits(b)
    ensures AllDigits(a + b)
  {
    var t := a + b;
    forall i | 0 <= i < |t| ensures IsDigit(t[i]) {
      if i < |a| { assert t[i] == a[i]; } else { assert t[i] == b[i - |a|]; }
    }
  }

  /** int() of digit groups is the number their digits denote. */
  lemma ParseGroups(t: string)
    requires IsDigitGroups(t)
    ensures ParseSigned(t) == Some(ValueOf(DropUnderscores(t)) as int)
  {
    assert t[0] != '+' && t[0] != '-';
  }

  /** int() of two digit groups joined by one underscore is the number
      their digits denote, run together. */
  lemma ParseIntUnderscore(a: string, b: string)
    requires IsDigitGroups(a) && IsDigitGroups(b)
    ensures IsDigitGroups(a + "_" + b)
    ensures ParseInt(a + "_" + b) == Some(ValueOf(DropUnderscores(a) + DropUnderscores(b)) as int)
  {
    var s := a + "_" + b;
    GroupsJoin(a, b);
    DropUnderscoresAtSeparator(a, b);
    NotSpace(s[0]);
    NotSpace(s[|s| - 1]);
    ParseIntBare(s);
    ParseGroups(s);
  }

  /** An underscore between two digit strings does not change the value
      int() gives. */
  lemma ParseIntUnderscoreDigits(a: string, b: string)
    requires a != [] && AllDigits(a) && b != [] && AllDigits(b)
    ensures AllDigits(a + b)
    ensures ParseInt(a + "_" + b) == ParseInt(a + b)
    ensures ParseInt(a + b) == Some(ValueOf(a + b) as int)
  {
    var t := a + b;
    DigitsAreGroups(a);
    DigitsAreGroups(b);
    DigitsJoin(a, b);
    DigitsAreGroups(t);
    ParseIntUnderscore(a, b);
    assert t[0] == a[0] && t[|t| - 1] == b[|b| - 1];
    NotSpace(t[0]);
    NotSpace(t[|t| - 1]);
    ParseIntBare(t);
    ParseGroups(t);
  }

  /** int() refuses digits followed by one of the ASCII separators
      U+001C..U+001F, although str.isspace() calls them whitespace. */
  lemma ParseIntRejectsSeparator(ds: string, c: char)
    requires ds != [] && AllDigits(ds)
    requires '\U{001C}' <= c <= '\U{001F}'
    ensures c in Whitespace
    ensures ParseInt(ds + [c]).None?
  {
    WhitespaceIsSpace(c);
    var t := ds + [c];
    assert t[0] == ds[0] && t[|t| - 1] == c;
    StripUnchanged(t, IntSpace);
  }

  /** int(c) for a single character: the digit's value, None (ValueError)
      for anything else; IntOfCharAgrees relates it to int(). */
  function IntOfChar(c: char): (v: Option<nat>)
    ensures v.Some? <==> IsDigit(c)
    ensures v.Some? ==> v.value == DigitValue(c) && v.value < 10
  {
    if IsDigit(c) then Some(DigitValue(c)) else None
  }

  /** int() of one character succeeds exactly on a decimal digit. */
  lemma IntOfCharAgrees(c: char)
    ensures ParseInt([c]) == if IsDigit(c) then Some(DigitValue(c) as int) else None
    ensures IntOfChar(c).None? <==> ParseInt([c]).None?
    ensures IntOfChar(c).Some? ==> ParseInt([c]) == Some(IntOfChar(c).value as int)
  {
    if c in IntSpace {
      IntOfSpaceChar(c);
    } else if IsDigit(c) {
      IntOfDigitChar(c);
    } else {
      IntOfOtherChar(c);
    }
  }

  lemma IntOfSpaceChar(c: char)
    requires c in IntSpace
    ensures ParseInt([c]) == None
  {
    assert LStrip([c], IntSpace) == [];
  }

  lemma IntOfDigitChar(c: char)
    requires IsDigit(c)
    ensures ParseInt([c]) == Some(DigitValue(c) as int)
  {
    NotSpace(c);
    StripUnchanged([c], IntSpace);
    assert IsDigitGroups([c]);
    assert DropUnderscores([c]) == [c];
    assert [c][..0] == [];
    assert ValueOf([c]) == DigitValue(c);
    assert ParseSigned([c]) == Some(ValueOf([c]) as int);
  }

  lemma IntOfOtherChar(c: char)
    requires c !in IntSpace && !IsDigit(c)
    ensures ParseInt([c]) == None
  {
    StripUnchanged([c], IntSpace);
    if c == '-' || c == '+' {
      assert [c][1..] == [];
    } else {
      assert !IsDigitGroups([c]);
    }
  }
}

=== FILE: py_str.dfy ===
/** The Python `str` operations the drivers use, written out over `seq<char>`:
    startswith, lstrip/rstrip/strip, split() on whitespace, split(sep), and
    the line splitting done by a text-mode file's readlines(). */
module PyStr {

  /** str.isspace() for one character: the 29 code points Python treats as
      whitespace. */
  predicate IsSpace(c: char) {
    || '\t' <= c <= '\r'
    || '\U{001C}' <= c <= ' '
    || c == '\U{0085}' || c == '\U{00A0}' || c == '\U{1680}'
    || '\U{2000}' <= c <= '\U{200A}'
    || c == '\U{2028}' || c == '\U{2029}' || c == '\U{202F}' || c == '\U{205F}' || c == '\U{3000}'
  }

  /** The set strip() and split() without arguments strip and split on. */
  const Whitespace: set<char> := set c: char | '\t' <= c <= '\U{3000}' && IsSpace(c)

  /** Whitespace holds exactly the characters str.isspace() accepts. */
  lemma WhitespaceIsSpace(c: char)
    ensures c in Whitespace <==> IsSpace(c)
  {
  }

  /** str.startswith(prefix) */
  predicate StartsWith(s: string, prefix: string) {
    prefix <= s
  }

  /** A string is its prefix followed by what comes after it. */
  lemma PrefixThenRest(prefix: string, s: string)
    requires StartsWith(s, prefix)
    ensures prefix + s[|prefix|..] == s
  {
    assert s[..|prefix|] == prefix;
    assert s[..|prefix|] + s[|prefix|..] == s;
  }

  /** str.lstrip(chars): removes the longest leading run of characters that
      belong to `chars` (a character set, not a prefix string). */
  function LStrip(s: string, chars: set<char>): (r: string)
    ensures |r| <= |s| && r == s[|s| - |r|..]
    ensures forall i :: 0 <= i < |s| - |r| ==> s[i] in chars
    ensures r == [] || r[0] !in chars
    decreases |s|
  {
    if s != [] && s[0] in chars then LStrip(s[1..], chars) else s
  }

  /** The three properties of LStrip's contract determine its result: any
      cut point with only `chars` before it and a non-member after it is
      the one LStrip takes. */
  lemma LStripUnique(s: string, chars: set<char>, k: nat)
    requires k <= |s|
    requires forall i :: 0 <= i < k ==> s[i] in chars
    requires k == |s| || s[k] !in chars
    ensures LStrip(s, chars) == s[k..]
  {
  }

  /** lstrip(chars) removes at least a leading run drawn from `chars`. */
  lemma {:induction false} LStripDropsRun(s: string, chars: set<char>, k: nat)
    requires k <= |s|
    requires forall i :: 0 <= i < k ==> s[i] in chars
    ensures |LStrip(s, chars)| <= |s| - k
  {
    if k > 0 {
      assert forall i :: 0 <= i < k - 1 ==> s[1..][i] in chars by {
        forall i | 0 <= i < k - 1 ensures s[1..][i] in chars {
          assert s[1..][i] == s[i + 1];
        }
      }
      LStripDropsRun(s[1..], chars, k - 1);
    }
  }

  /** When `s` starts with a run of `chars` that the next character ends,
      lstrip removes exactly that run. */
  lemma LStripPrefixRun(prefix: string, s: string, chars: set<char>)
    requires StartsWith(s, prefix)
    requires forall i :: 0 <= i < |prefix| ==> prefix[i] in chars
    requires |s| == |prefix| || s[|prefix|] !in chars
    ensures prefix + LStrip(s, chars) == s
  {
    LStripUnique(s, chars, |prefix|);
    PrefixThenRest(prefix, s);
  }

  /** str.rstrip(chars): removes the longest trailing run of characters that
      belong to `chars`. */
  function RStrip(s: string, chars: set<char>): (r: string)
    ensures |r| <= |s| && r == s[..|r|]
    ensures forall i :: |r| <= i < |s| ==> s[i] in chars
    ensures r == [] || r[|r| - 1] !in chars
    decreases |s|
  {
    if s != [] && s[|s| - 1] in chars then RStrip(s[..|s| - 1], chars) else s
  }

  /** The contract of RStrip determines its result. */
  lemma RStripUnique(s: string, chars: set<char>, k: nat)
    requires k <= |s|
    requires forall i :: k <= i < |s| ==> s[i] in chars
    requires k == 0 || s[k - 1] !in chars
    ensures RStrip(s, chars) == s[..k]
  {
  }

  /** Removes the longest leading and the longest trailing run of `chars`:
      str.strip() with no argument when `chars` is Whitespace. */
  function StripChars(s: string, chars: set<char>): (r: string)
    ensures r == [] || (r[0] !in chars && r[|r| - 1] !in chars)
  {
    RStrip(LStrip(s, chars), chars)
  }

  /** str.strip() with no argument. */
  function Strip(s: string): (r: string)
    ensures r == [] || (r[0] !in Whitespace && r[|r| - 1] !in Whitespace)
  {
    StripChars(s, Whitespace)
  }

  /** The maximal runs of characters outside `seps`, in order; separators at
      either end or in a row yield no empty words. */
  function SplitRuns(s: string, seps: set<char>): (words: seq<string>)
    ensures words == [] <==> forall i :: 0 <= i < |s| ==> s[i] in seps
  {
    if s == [] then []
    else
      var rest := SplitRuns(s[1..], seps);
      if s[0] in seps then rest
      else if |s| > 1 && s[1] !in seps then [[s[0]] + rest[0]] + rest[1..]
      else [[s[0]]] + rest
  }

  /** strip() leaves nothing exactly when the text is all whitespace. */
  lemma StripEmptyIff(s: string)
    ensures Strip(s) == [] <==> forall i :: 0 <= i < |s| ==> s[i] in Whitespace
  {
  }

  /** str.split() with no argument: the whitespace-separated words. */
  function Split(s: string): seq<string> {
    SplitRuns(s, Whitespace)
  }

  /** A non-empty run free of separators is a single word. */
  lemma {:induction false} SplitRunsWord(w: string, seps: set<char>)
    requires w != [] && forall i :: 0 <= i < |w| ==> w[i] !in seps
    ensures SplitRuns(w, seps) == [w]
  {
    if |w| > 1 {
      SplitRunsWord(w[1..], seps);
      assert [w[0]] + w[1..] == w;
    } else {
      assert SplitRuns(w[1..], seps) == [];
      assert w == [w[0]];
    }
  }

  /** A separator splits the text in two independently split halves. */
  lemma {:induction false} SplitRunsAtSeparator(a: string, c: char, b: string, seps: set<char>)
    requires c in seps
    ensures SplitRuns(a + [c] + b, seps) == SplitRuns(a, seps) + SplitRuns(b, seps)
  {
    var s := a + [c] + b;
    if a == [] {
      assert s[1..] == b;
      SplitRunsSkip(s, seps);
    } else {
      SplitRunsAtSeparator(a[1..], c, b, seps);
      assert s[0] == a[0] && s[1..] == a[1..] + [c] + b;
      assert |a| > 1 ==> s[1] == a[1];
      assert |a| == 1 ==> s[1] == c;
      SplitRunsConsStep(a, s, SplitRuns(b, seps), seps);
    }
  }

  /** Two strings that start alike, and whose tails split to the same
      words up to a common suffix, split to the same words up to that
      suffix. */
  lemma SplitRunsConsStep(a: string, s: string, rb: seq<string>, seps: set<char>)
    requires a != [] && |s| > 1 && s[0] == a[0]
    requires |a| > 1 ==> s[1] == a[1]
    requires |a| == 1 ==> s[1] in seps
    requires SplitRuns(s[1..], seps) == SplitRuns(a[1..], seps) + rb
    ensures SplitRuns(s, seps) == SplitRuns(a, seps) + rb
  {
    if a[0] in seps {
      SkipStep(a, s, rb, seps);
    } else if |a| > 1 && a[1] !in seps {
      GlueStep(a, s, SplitRuns(a[1..], seps), rb, seps);
    } else {
      AloneStep(a, s, rb, seps);
    }
  }

  lemma SkipStep(a: string, s: string, rb: seq<string>, seps: set<char>)
    requires a != [] && s != [] && s[0] == a[0] && a[0] in seps
    requires SplitRuns(s[1..], seps) == SplitRuns(a[1..], seps) + rb
    ensures SplitRuns(s, seps) == SplitRuns(a, seps) + rb
  {
    SplitRunsSkip(s, seps);
    SplitRunsSkip(a, seps);
  }

  lemma AloneStep(a: string, s: string, rb: seq<string>, seps: set<char>)
    requires a != [] && |s| > 1 && s[0] == a[0] && a[0] !in seps && s[1] in seps
    requires |a| == 1 || a[1] in seps
    requires SplitRuns(s[1..], seps) == SplitRuns(a[1..], seps) + rb
    ensures SplitRuns(s, seps) == SplitRuns(a, seps) + rb
  {
    SplitRunsAlone(s, seps);
    SplitRunsAlone(a, seps);
    ConcatAssoc([[a[0]]], SplitRuns(a[1..], seps), rb);
  }

  lemma GlueStep(a: string, s: string, ra: seq<string>, rb: seq<string>, seps: set<char>)
    requires |a| > 1 && |s| > 1 && s[0] == a[0] && s[1] == a[1]
    requires a[0] !in seps && a[1] !in seps
    requires ra == SplitRuns(a[1..], seps)
    requires SplitRuns(s[1..], seps) == ra + rb
    ensures SplitRuns(s, seps) == SplitRuns(a, seps) + rb
  {
    SplitRunsGlue(s, seps);
    SplitRunsGlue(a, seps);
    HeadTailConcat(ra, rb);
    var w := [a[0]] + ra[0];
    ConcatAssoc([w], ra[1..], rb);
  }

  lemma HeadTailConcat<T>(x: seq<T>, y: seq<T>)
    requires x != []
    ensures (x + y)[0] == x[0] && (x + y)[1..] == x[1..] + y
  {
  }

  lemma ConcatAssoc<T>(a: seq<T>, b: seq<T>, c: seq<T>)
    ensures a + (b + c) == (a + b) + c
  {
  }

  /** A leading separator contributes nothing. */
  lemma SplitRunsSkip(s: string, seps: set<char>)
    requires s != [] && s[0] in seps
    ensures SplitRuns(s, seps) == SplitRuns(s[1..], seps)
  {
  }

  /** A leading non-separator followed by another one starts the first word. */
  lemma SplitRunsGlue(s: string, seps: set<char>)
    requires |s| > 1 && s[0] !in seps && s[1] !in seps
    ensures SplitRuns(s[1..], seps) != []
    ensures SplitRuns(s, seps) == [[s[0]] + SplitRuns(s[1..], seps)[0]] + SplitRuns(s[1..], seps)[1..]
  {
  }

  /** A non-separator followed by a separator or the end is a word alone. */
  lemma SplitRunsAlone(s: string, seps: set<char>)
    requires s != [] && s[0] !in seps && (|s| == 1 || s[1] in seps)
    ensures SplitRuns(s, seps) == [[s[0]]] + SplitRuns(s[1..], seps)
  {
  }

  /** Longest suffix of `s` that holds no character of `seps`. */
  function TrailingRun(s: string, seps: set<char>): (w: string)
    ensures |w| <= |s| && w == s[|s| - |w|..]
    ensures forall i :: 0 <= i < |w| ==> w[i] !in seps
    ensures |w| == |s| || s[|s| - |w| - 1] in seps
    decreases |s|
  {
    if s != [] && s[|s| - 1] !in seps then
      var r := TrailingRun(s[..|s| - 1], seps);
      TrailingRunStep(s, seps, r);
      r + [s[|s| - 1]]
    else []
  }

  /** A run trailing all but the last character, extended by that
      non-separator, trails the whole text. */
  lemma TrailingRunStep(s: string, seps: set<char>, r: string)
    requires s != [] && s[|s| - 1] !in seps
    requires |r| <= |s| - 1 && r == s[..|s| - 1][|s| - 1 - |r|..]
    requires forall i :: 0 <= i < |r| ==> r[i] !in seps
    requires |r| == |s| - 1 || s[..|s| - 1][|s| - 1 - |r| - 1] in seps
    ensures var w := r + [s[|s| - 1]];
            && |w| <= |s| && w == s[|s| - |w|..]
            && (forall i :: 0 <= i < |w| ==> w[i] !in seps)
            && (|w| == |s| || s[|s| - |w| - 1] in seps)
  {
    var w := r + [s[|s| - 1]];
    assert s[|s| - |w|..] == s[..|s| - 1][|s| - 1 - |r|..] + [s[|s| - 1]];
    forall i | 0 <= i < |w| ensures w[i] !in seps {
      if i < |r| {
        assert w[i] == r[i];
      }
    }
    if |w| < |s| {
      assert s[|s| - |w| - 1] == s[..|s| - 1][|s| - 1 - |r| - 1];
    }
  }

  /** The contract of TrailingRun determines it: any cut point with only
      non-separators after it and a separator (or the start) before it is
      the one TrailingRun takes. */
  lemma TrailingRunUnique(s: string, seps: set<char>, k: nat)
    requires k <= |s|
    requires forall i :: k <= i < |s| ==> s[i] !in seps
    requires k == 0 || s[k - 1] in seps
    ensures TrailingRun(s, seps) == s[k..]
  {
  }

  /** When `s` ends in a non-separator, the split is non-empty and its last
      word is the trailing run of `s`. */
  lemma {:induction false} SplitRunsLast(s: string, seps: set<char>)
    requires s != [] && s[|s| - 1] !in seps
    ensures SplitRuns(s, seps) != []
    ensures SplitRuns(s, seps)[|SplitRuns(s, seps)| - 1] == TrailingRun(s, seps)
  {
    var w := TrailingRun(s, seps);
    if |w| < |s| {
      SplitRunsLastAfterSeparator(s, seps);
    } else {
      assert s == w;
      SplitRunsWord(s, seps);
    }
  }

  /** The case of SplitRunsLast where a separator precedes the trailing run. */
  lemma {:induction false} SplitRunsLastAfterSeparator(s: string, seps: set<char>)
    requires s != [] && s[|s| - 1] !in seps
    requires |TrailingRun(s, seps)| < |s|
    ensures SplitRuns(s, seps) == SplitRuns(s[..|s| - |TrailingRun(s, seps)| - 1], seps) + [TrailingRun(s, seps)]
  {
    var w := TrailingRun(s, seps);
    assert w != [];
    SplitRunsWord(w, seps);
    var a := s[..|s| - |w| - 1];
    var c := s[|s| - |w| - 1];
    assert s == a + [c] + w;
    SplitRunsAtSeparator(a, c, w, seps);
  }

  /** `t` ends with the word `w`: preceded by a separator or by nothing. */
  predicate EndsWithRun(t: string, w: string, seps: set<char>) {
    && |w| <= |t|
    && t[|t| - |w|..] == w
    && (|t| == |w| || t[|t| - |w| - 1] in seps)
  }

  /** For text ending in a non-separator, the last word of the split is a
      given separator-free word exactly when the text ends with that word. */
  lemma SplitRunsLastIff(t: string, w: string, seps: set<char>)
    requires t != [] && t[|t| - 1] !in seps
    requires w != [] && forall i :: 0 <= i < |w| ==> w[i] !in seps
    ensures SplitRuns(t, seps) != []
    ensures SplitRuns(t, seps)[|SplitRuns(t, seps)| - 1] == w <==> EndsWithRun(t, w, seps)
  {
    var parts := SplitRuns(t, seps);
    SplitRunsLast(t, seps);
    var last := TrailingRun(t, seps);
    assert parts[|parts| - 1] == last;
    TrailingRunIff(t, w, seps);
    if parts[|parts| - 1] == w {
      assert last == w;
    } else {
      assert last != w;
    }
  }

  /** The trailing run is a given separator-free word exactly when the text
      ends with that word after a separator or the start. */
  lemma TrailingRunIff(t: string, w: string, seps: set<char>)
    requires forall i :: 0 <= i < |w| ==> w[i] !in seps
    ensures TrailingRun(t, seps) == w <==> EndsWithRun(t, w, seps)
  {
    var last := TrailingRun(t, seps);
    assert EndsWithRun(t, last, seps);
    if EndsWithRun(t, w, seps) {
      TrailingRunUnique(t, seps, |t| - |w|);
      assert last == t[|t| - |w|..] == w;
    }
  }

  /** A word after a separator ends the text. */
  lemma RunAfterSeparator(pre: string, c: char, w: string, seps: set<char>)
    requires c in seps
    ensures EndsWithRun(pre + [c] + w, w, seps)
  {
    var t := pre + [c] + w;
    assert t[|t| - |w|..] == w;
    assert t[|t| - |w| - 1] == c;
  }

  /** strip() leaves a line's content and drops its line break when the
      content neither starts nor ends with whitespace. */
  lemma StripLine(body: string)
    requires body != [] && body[0] !in Whitespace && body[|body| - 1] !in Whitespace
    ensures Strip(body + "\n") == body
  {
    var s := body + "\n";
    assert LStrip(s, Whitespace) == s;
    assert s[..|s| - 1] == body;
    assert RStrip(body, Whitespace) == body;
  }

  /** Stripping leaves text that neither starts nor ends with a stripped
      character. */
  lemma StripUnchanged(s: string, chars: set<char>)
    requires s != [] && s[0] !in chars && s[|s| - 1] !in chars
    ensures StripChars(s, chars) == s
  {
    LStripUnique(s, chars, 0);
    RStripUnique(s, chars, |s|);
  }

  /** lstrip(chars) removes exactly a leading run drawn from `chars` that
      is followed by a non-member. */
  lemma {:induction false} LStripPrefixed(pre: string, y: string, chars: set<char>)
    requires forall i :: 0 <= i < |pre| ==> pre[i] in chars
    requires y != [] && y[0] !in chars
    ensures LStrip(pre + y, chars) == y
    decreases |pre|
  {
    if pre == [] {
      assert pre + y == y;
    } else {
      assert (pre + y)[1..] == pre[1..] + y;
      LStripPrefixed(pre[1..], y, chars);
    }
  }

  /** rstrip(chars) removes exactly a trailing run drawn from `chars` that
      follows a non-member. */
  lemma {:induction false} RStripSuffixed(y: string, post: string, chars: set<char>)
    requires forall i :: 0 <= i < |post| ==> post[i] in chars
    requires y != [] && y[|y| - 1] !in chars
    ensures RStrip(y + post, chars) == y
    decreases |post|
  {
    if post == [] {
      assert y + post == y;
    } else {
      var x := y + post;
      assert x[..|x| - 1] == y + post[..|post| - 1];
      RStripSuffixed(y, post[..|post| - 1], chars);
    }
  }

  /** Stripping removes exactly the stripped characters around text that
      neither starts nor ends with one. */
  lemma StripSurrounded(pre: string, s: string, post: string, chars: set<char>)
    requires forall i :: 0 <= i < |pre| ==> pre[i] in chars
    requires forall i :: 0 <= i < |post| ==> post[i] in chars
    requires s != [] && s[0] !in chars && s[|s| - 1] !in chars
    ensures StripChars(pre + s + post, chars) == s
  {
    assert pre + s + post == pre + (s + post);
    LStripPrefixed(pre, s + post, chars);
    RStripSuffixed(s, post, chars);
  }

  /** str.split(sep) for a one-character separator: the pieces between
      consecutive separators, empty pieces included. */
  function SplitOn(s: string, sep: char): (parts: seq<string>)
    ensures |parts| >= 1
    ensures forall i :: 0 <= i < |parts| ==> sep !in parts[i]
    ensures |parts| == 1 <==> sep !in s
  {
    if s == [] then [[]]
    else
      var rest := SplitOn(s[1..], sep);
      if s[0] == sep then [[]] + rest
      else [[s[0]] + rest[0]] + rest[1..]
  }

  /** sep.join(parts) */
  function Join(parts: seq<string>, sep: char): string
    requires |parts| >= 1
  {
    if |parts| == 1 then parts[0] else parts[0] + [sep] + Join(parts[1..], sep)
  }

  /** Joining the pieces of split(sep) with sep gives back the string. */
  lemma {:induction false} JoinSplitOn(s: string, sep: char)
    ensures Join(SplitOn(s, sep), sep) == s
  {
    if s != [] {
      var rest := SplitOn(s[1..], sep);
      JoinSplitOn(s[1..], sep);
      if s[0] == sep {
        assert SplitOn(s, sep) == [[]] + rest;
      } else {
        var parts := SplitOn(s, sep);
        assert parts == [[s[0]] + rest[0]] + rest[1..];
        if |rest| == 1 {
          assert Join(parts, sep) == [s[0]] + rest[0];
        } else {
          assert parts[1..] == rest[1..];
          assert Join(parts, sep) == [s[0]] + (rest[0] + [sep] + Join(rest[1..], sep));
        }
      }
    }
  }

  /** Splitting a join of separator-free pieces gives back the pieces. */
  lemma {:induction false} SplitOnJoin(parts: seq<string>, sep: char)
    requires |parts| >= 1
    requires forall i :: 0 <= i < |parts| ==> sep !in parts[i]
    ensures SplitOn(Join(parts, sep), sep) == parts
    decreases |parts|
  {
    if |parts| == 1 {
      SplitOnWhole(parts[0], sep);
    } else {
      var tail := parts[1..];
      assert forall i :: 0 <= i < |tail| ==> sep !in tail[i] by {
        forall i | 0 <= i < |tail| ensures sep !in tail[i] {
          assert tail[i] == parts[i + 1];
        }
      }
      SplitOnJoin(tail, sep);
      SplitOnPrefix(parts[0], Join(tail, sep), sep);
      assert [parts[0]] + tail == parts;
    }
  }

  /** A separator-free piece followed by the separator splits off as the
      first piece. */
  lemma {:induction false} SplitOnPrefix(a: string, rest: string, sep: char)
    requires sep !in a
    ensures SplitOn(a + [sep] + rest, sep) == [a] + SplitOn(rest, sep)
  {
    var s := a + [sep] + rest;
    if a == [] {
      assert s[0] == sep && s[1..] == rest;
    } else {
      assert s[1..] == a[1..] + [sep] + rest;
      SplitOnPrefix(a[1..], rest, sep);
      assert s[0] == a[0] && a[0] != sep;
      assert [a[0]] + a[1..] == a;
    }
  }

  /** The piece after the first separator runs up to the second separator
      or the end. */
  lemma SplitOnSecond(a: string, b: string, c: string, sep: char)
    requires sep !in a && sep !in b
    requires c == [] || c[0] == sep
    ensures |SplitOn(a + [sep] + (b + c), sep)| >= 2
    ensures SplitOn(a + [sep] + (b + c), sep)[1] == b
  {
    if c == [] {
      assert b + c == b;
      SplitOnLast(a, b, sep);
    } else {
      assert b + c == b + [sep] + c[1..];
      SplitOnMiddle(a, b, c[1..], sep);
    }
  }

  lemma SplitOnLast(a: string, b: string, sep: char)
    requires sep !in a && sep !in b
    ensures SplitOn(a + [sep] + b, sep) == [a, b]
  {
    SplitOnPrefix(a, b, sep);
    SplitOnWhole(b, sep);
  }

  lemma SplitOnMiddle(a: string, b: string, c: string, sep: char)
    requires sep !in a && sep !in b
    ensures SplitOn(a + [sep] + (b + [sep] + c), sep) == [a, b] + SplitOn(c, sep)
  {
    SplitOnPrefix(a, b + [sep] + c, sep);
    SplitOnPrefix(b, c, sep);
  }

  /** The first piece of split(sep) is longer than `k` exactly when the
      first k + 1 characters hold no separator. */
  lemma {:induction false} FirstPieceLonger(s: string, sep: char, k: nat)
    ensures |SplitOn(s, sep)[0]| > k <==> |s| > k && sep !in s[..k + 1]
  {
    if s != [] && s[0] != sep {
      if k == 0 {
        assert s[..1] == [s[0]];
      } else {
        FirstPieceLonger(s[1..], sep, k - 1);
        if |s| > k {
          assert s[..k + 1] == [s[0]] + s[1..][..k];
        }
      }
    } else if s != [] {
      if |s| > k {
        assert s[..k + 1][0] == sep;
      }
    }
  }

  /** Text without the separator is a single piece. */
  lemma SplitOnWhole(s: string, sep: char)
    requires sep !in s
    ensures SplitOn(s, sep) == [s]
  {
    JoinSplitOn(s, sep);
  }

  /** The translation a text-mode file applies on read (universal newlines):
      "\r\n" and a lone "\r" both become "\n". */
  function UniversalNewlines(s: string): (r: string)
    ensures '\r' !in r
    ensures '\r' !in s ==> r == s
  {
    if s == [] then []
    else if s[0] == '\r' then
      if |s| > 1 && s[1] == '\n' then "\n" + UniversalNewlines(s[2..])
      else "\n" + UniversalNewlines(s[1..])
    else [s[0]] + UniversalNewlines(s[1..])
  }

  /** Text free of carriage returns passes through the translation
      unchanged, whatever follows it. */
  lemma {:induction false} UniversalNewlinesPrefix(a: string, b: string)
    requires '\r' !in a
    ensures UniversalNewlines(a + b) == a + UniversalNewlines(b)
  {
    if a != [] {
      assert (a + b)[1..] == a[1..] + b;
      assert a[0] != '\r';
      UniversalNewlinesPrefix(a[1..], b);
      assert [a[0]] + a[1..] == a;
    } else {
      assert a + b == b;
    }
  }

  /** "\r\n" reads as one "\n". */
  lemma UniversalNewlinesCrLf(a: string, b: string)
    requires '\r' !in a
    ensures UniversalNewlines(a + "\r\n" + b) == a + "\n" + UniversalNewlines(b)
  {
    var t := "\r\n" + b;
    assert a + "\r\n" + b == a + t;
    UniversalNewlinesPrefix(a, t);
    assert t[0] == '\r' && t[1] == '\n' && t[2..] == b;
    assert a + ("\n" + UniversalNewlines(b)) == a + "\n" + UniversalNewlines(b);
  }

  /** A "\r" that no "\n" follows reads as "\n". */
  lemma UniversalNewlinesLoneCr(a: string, b: string)
    requires '\r' !in a
    requires b == [] || b[0] != '\n'
    ensures UniversalNewlines(a + "\r" + b) == a + "\n" + UniversalNewlines(b)
  {
    var t := "\r" + b;
    assert a + "\r" + b == a + t;
    UniversalNewlinesPrefix(a, t);
    assert t[0] == '\r' && t[1..] == b;
    assert |t| > 1 ==> t[1] != '\n';
    assert a + ("\n" + UniversalNewlines(b)) == a + "\n" + UniversalNewlines(b);
  }

  /** `line` is one line as readlines() returns it: non-empty, with its only
      newline, if any, at the end. */
  predicate IsLine(line: string) {
    line != [] && forall j :: 0 <= j < |line| - 1 ==> line[j] != '\n'
  }

  /** The concatenation of a sequence of strings. */
  function Concat(parts: seq<string>): string {
    if parts == [] then [] else parts[0] + Concat(parts[1..])
  }

  /** file.readlines() on already-translated text: every line keeps its
      terminating "\n"; the last line may lack one; empty text has no lines. */
  function ReadLines(s: string): (lines: seq<string>)
    ensures forall i :: 0 <= i < |lines| ==> IsLine(lines[i]) && (i < |lines| - 1 ==> lines[i][|lines[i]| - 1] == '\n')
    ensures lines == [] <==> s == []
  {
    if s == [] then []
    else
      var rest := ReadLines(s[1..]);
      if s[0] == '\n' then [['\n']] + rest
      else if rest == [] then [[s[0]]]
      else [[s[0]] + rest[0]] + rest[1..]
  }

  /** readlines() loses nothing: its lines concatenate back to the text. */
  lemma {:induction false} ConcatReadLines(s: string)
    ensures Concat(ReadLines(s)) == s
  {
    if s != [] {
      var rest := ReadLines(s[1..]);
      ConcatReadLines(s[1..]);
      if s[0] == '\n' {
        assert ReadLines(s)[1..] == rest;
      } else if rest == [] {
      } else {
        var lines := ReadLines(s);
        assert lines[1..] == rest[1..];
        assert Concat(rest) == rest[0] + Concat(rest[1..]);
      }
    }
  }

  /** A text that starts with one complete line reads as that line followed
      by the lines of the remainder. */
  lemma {:induction false} ReadLinesCons(line: string, rest: string)
    requires IsLine(line) && line[|line| - 1] == '\n'
    ensures ReadLines(line + rest) == [line] + ReadLines(rest)
    decreases |line|
  {
    var s := line + rest;
    if |line| == 1 {
      assert line == ['\n'];
      assert s[0] == '\n' && s[1..] == rest;
    } else {
      var tail := line[1..];
      assert IsLine(tail) by {
        forall j | 0 <= j < |tail| - 1 ensures tail[j] != '\n' {
          assert tail[j] == line[j + 1];
        }
      }
      ReadLinesCons(tail, rest);
      assert s[1..] == tail + rest;
      assert line[0] != '\n';
      assert [line[0]] + tail == line;
    }
  }

  /** Text of two complete lines without carriage returns reads as those
      two lines. */
  lemma ReadTwoLines(one: string, two: string)
    requires '\n' !in one && '\r' !in one && '\n' !in two && '\r' !in two
    ensures ReadLines(UniversalNewlines(one + "\n" + two + "\n")) == [one + "\n", two + "\n"]
  {
    var text := one + "\n" + two + "\n";
    assert text == (one + "\n") + (two + "\n");
    LineOf(one);
    LineOf(two);
    ReadLinesCons(one + "\n", two + "\n");
    ReadLinesCons(two + "\n", []);
    assert two + "\n" + [] == two + "\n";
  }

  /** Text without a line break, followed by one, is a complete line. */
  lemma LineOf(body: string)
    requires '\n' !in body
    ensures IsLine(body + "\n")
  {
    var line := body + "\n";
    forall j | 0 <= j < |line| - 1 ensures line[j] != '\n' {
      assert line[j] == body[j];
    }
  }
}

=== FILE: results.dfy ===
/** Failure-carrying datatypes shared by the driver models: an optional value
    (Python's None) and a value-or-exception result. */
module Results {

  /** A value that may be absent, as a Python function returning None. */
  datatype Option<+T> = None | Some(value: T)

  /** Either the value a call returns or the exception it raises. */
  datatype Result<+T, +E> = Ok(value: T) | Err(error: E)
}

=== FILE: seven_segment.dfy ===
/** The serial seven-segment display driver: the SPI frames that send_int
    and send_float produce for the decimal text of a number. The SPI device
    itself is not modelled; each transfer is returned as a frame. */
module SevenSegment {
  import opened Results
  import opened PyStr
  import opened PyInt

  /** Command byte that blanks the display and homes the cursor. */
  const Clear: int := 0x76
  /** Command byte that sets the decimal points; a bitmask byte follows. */
  const Decimal: int := 0x77
  /** Number of digit positions on the display. */
  const Width: nat := 4

  /** BadNumberError is the driver's own; ValueError comes from int(c) on a
      character that is not a digit. */
  datatype SendError = BadNumberError | ValueError

  /** One SPI transfer: spi.xfer(data) or spi.writebytes(data). */
  datatype Frame = Xfer(data: seq<int>) | WriteBytes(data: seq<int>)

  /** What one call sends, in order, and the exception it ends with. */
  datatype Transmission = Transmission(frames: seq<Frame>, raised: Option<SendError>)

  /** A call that refused the number before sending anything. */
  const Rejected: Transmission := Transmission([], Some(BadNumberError))

  /** A call that cleared the display, then failed on a non-digit. */
  const ClearedThenFailed: Transmission := Transmission([Xfer([Clear])], Some(ValueError))

  /** A call that cleared the display and sent `payload`. */
  function Sent(payload: seq<int>): Transmission {
    Transmission([Xfer([Clear]), WriteBytes(payload)], None)
  }

  /** The value of each digit of `s`, in order. */
  function DigitValues(s: string): (vs: seq<int>)
    requires AllDigits(s)
    ensures |vs| == |s|
    ensures forall i :: 0 <= i < |s| ==> vs[i] == DigitValue(s[i]) && 0 <= vs[i] < 10
  {
    seq(|s|, i requires 0 <= i < |s| => DigitValue(s[i]) as int)
  }

  /** Peeling off the first character of a digit string. */
  lemma DigitValuesCons(s: string)
    requires s != []
    ensures AllDigits(s) <==> IsDigit(s[0]) && AllDigits(s[1..])
    ensures AllDigits(s) ==> DigitValues(s) == [DigitValue(s[0]) as int] + DigitValues(s[1..])
  {
    if IsDigit(s[0]) && AllDigits(s[1..]) {
      forall i | 1 <= i < |s| ensures IsDigit(s[i]) {
        assert s[i] == s[1..][i - 1];
      }
    }
  }

  /** The digits a sequence of digit values spells. */
  function DigitText(vs: seq<int>): (s: string)
    requires forall i :: 0 <= i < |vs| ==> 0 <= vs[i] < 10
    ensures AllDigits(s) && DigitValues(s) == vs
  {
    seq(|vs|, i requires 0 <= i < |vs| => DigitChar(vs[i] as nat))
  }

  // ---------------------------------------------------------------- send_int

  /** [int(c) for c in s]; None stands for the ValueError of a non-digit. */
  function IntBytes(s: string): (bytes: Option<seq<int>>)
    ensures bytes.Some? <==> AllDigits(s)
    ensures bytes.Some? ==> bytes.value == DigitValues(s)
  {
    if s == [] then Some([])
    else
      DigitValuesCons(s);
      match IntOfChar(s[0])
      case None => None
      case Some(v) =>
        match IntBytes(s[1..])
        case None => None
        case Some(rest) => Some([v as int] + rest)
  }

  /** SevenSegment.send_int on the text str(int_num). */
  function SendInt(s: string): (t: Transmission)
    ensures t == Rejected <==> |s| > Width
    ensures t.raised.None? <==> |s| <= Width && AllDigits(s)
    ensures t.raised.None? ==> t == Sent(DigitValues(s))
    ensures t != Rejected && !t.raised.None? ==> t == ClearedThenFailed
  {
    if |s| > Width then Rejected
    else
      match IntBytes(s)
      case None => ClearedThenFailed
      case Some(bytes) => Sent(bytes)
  }

  /** The digit text a transmission displays, when it is a successful
      send_int: a clear frame, then at most four digit values. */
  function ReadInt(t: Transmission): Option<string> {
    if && t.raised.None?
       && |t.frames| == 2
       && t.frames[0] == Xfer([Clear])
       && t.frames[1].WriteBytes?
       && |t.frames[1].data| <= Width
       && (forall i :: 0 <= i < |t.frames[1].data| ==> 0 <= t.frames[1].data[i] < 10)
    then Some(DigitText(t.frames[1].data))
    else None
  }

  /** send_int and ReadInt are inverse: the display reads back exactly the
      texts of at most four digits, and every readable transmission is the
      one send_int produces for the text it reads as. */
  lemma SendIntRoundTrip(s: string, t: Transmission)
    ensures ReadInt(SendInt(s)) == Some(s) <==> |s| <= Width && AllDigits(s)
    ensures ReadInt(t).Some? ==> SendInt(ReadInt(t).value) == t
  {
    if |s| <= Width && AllDigits(s) {
      var vs := DigitValues(s);
      DigitValuesInjective(DigitText(vs), s);
    }
    if ReadInt(t).Some? {
      var vs := t.frames[1].data;
      assert t == Sent(vs);
    }
  }

  /** Digit strings with the same values are the same string. */
  lemma DigitValuesInjective(a: string, b: string)
    requires AllDigits(a) && AllDigits(b) && DigitValues(a) == DigitValues(b)
    ensures a == b
  {
    assert |a| == |b|;
    forall i | 0 <= i < |a| ensures a[i] == b[i] {
      assert DigitValue(a[i]) == DigitValue(b[i]);
    }
  }

  /** send_int(n) for an int n: 0..9999 are displayed and read back as n;
      -999..-1 clear the display and fail on the '-'; every other number is
      refused before anything is sent. */
  lemma SendIntOfInt(n: int)
    ensures SendInt(IntToString(n)).raised.None? <==> 0 <= n < 10000
    ensures SendInt(IntToString(n)) == ClearedThenFailed <==> -1000 < n < 0
    ensures SendInt(IntToString(n)) == Rejected <==> n <= -1000 || n >= 10000
    ensures 0 <= n < 10000 ==>
              && ReadInt(SendInt(IntToString(n))).Some?
              && ParseInt(ReadInt(SendInt(IntToString(n))).value) == Some(n)
  {
    var s := IntToString(n);
    assert Pow10(3) == 1000 && Pow10(4) == 10000;
    if n < 0 {
      NatToStringLength(-n, 3);
      assert s == "-" + NatToString(-n);
      assert !IsDigit(s[0]);
    } else {
      NatToStringLength(n, 4);
      assert s == NatToString(n);
      if n < 10000 {
        SendIntRoundTrip(s, SendInt(s));
        ParseIntRoundTrip(n);
      }
    }
  }

  // -------------------------------------------------------------- send_float

  /** 2**k for a non-negative k. */
  function Pow2(k: nat): (p: nat)
    ensures p >= 1
  {
    if k == 0 then 1 else 2 * Pow2(k - 1)
  }

  /** The number of characters of `s` that take a digit position: all but
      the '.' characters. */
  function DigitCount(s: string): (n: nat)
    ensures n <= |s|
  {
    if s == [] then 0 else (if s[0] == '.' then 0 else 1) + DigitCount(s[1..])
  }

  /** The prefix of `s` that send_float's loop reads before it stops: up to
      and including the character that fills the last of `room` positions,
      or all of `s`. */
  function Examined(s: string, room: nat): (e: string)
    ensures |e| <= |s| && e == s[..|e|]
    ensures DigitCount(e) <= room
    ensures e == s || (DigitCount(e) == room && (e == [] || e[|e| - 1] != '.'))
  {
    if s == [] || room == 0 then []
    else
      var rest := Examined(s[1..], if s[0] == '.' then room else room - 1);
      assert ([s[0]] + rest)[1..] == rest;
      [s[0]] + rest
  }

  /** The payload bytes of send_float's loop over `s`, `digits` positions
      being already filled: a digit sends its value; a '.' sends DECIMAL and
      the bit of the last filled position; the loop stops once four
      positions are filled. None stands for the ValueError of int(c). */
  function FloatPayload(s: string, digits: nat): (p: Option<seq<int>>)
    requires digits < Width
    requires digits == 0 ==> s == [] || s[0] != '.'
    ensures s == [] ==> p == Some([])
    ensures p.Some? && s != [] ==>
              && (s[0] == '.' || IsDigit(s[0]))
              && p.value != []
              && p.value[0] == (if s[0] == '.' then Decimal else DigitValue(s[0]) as int)
    decreases |s|
  {
    if s == [] then Some([])
    else if s[0] == '.' then
      match FloatPayload(s[1..], digits)
      case None => None
      case Some(rest) => Some([Decimal, Pow2(digits - 1) as int] + rest)
    else
      match IntOfChar(s[0])
      case None => None
      case Some(v) =>
        if digits + 1 >= Width then Some([v as int])
        else
          match FloatPayload(s[1..], digits + 1)
          case None => None
          case Some(rest) => Some([v as int] + rest)
  }

  /** The text a payload lights up, `digits` positions being already filled:
      digit values become digits, and DECIMAL must be followed by the bit of
      the last filled position, which becomes a '.'. None for any other
      byte. */
  function DecodePayload(p: seq<int>, digits: nat): Option<string>
    decreases |p|
  {
    if p == [] then Some([])
    else if p[0] == Decimal then
      if |p| >= 2 && digits >= 1 && p[1] == Pow2(digits - 1) as int then
        match DecodePayload(p[2..], digits)
        case None => None
        case Some(r) => Some("." + r)
      else None
    else if 0 <= p[0] < 10 then
      match DecodePayload(p[1..], digits + 1)
      case None => None
      case Some(r) => Some([DigitChar(p[0] as nat)] + r)
    else None
  }

  /** One digit that leaves positions free: its value, then the rest. */
  lemma FloatPayloadDigitStep(s: string, digits: nat)
    requires s != [] && IsDigit(s[0]) && digits + 1 < Width
    ensures FloatPayload(s, digits).Some? <==> FloatPayload(s[1..], digits + 1).Some?
    ensures FloatPayload(s, digits).Some? ==>
              FloatPayload(s, digits).value == [DigitValue(s[0]) as int] + FloatPayload(s[1..], digits + 1).value
  {
  }

  /** A '.' after a digit: the marker and the bit, then the rest. */
  lemma FloatPayloadPointStep(s: string, digits: nat)
    requires s != [] && s[0] == '.' && 1 <= digits < Width
    ensures FloatPayload(s, digits).Some? <==> FloatPayload(s[1..], digits).Some?
    ensures FloatPayload(s, digits).Some? ==>
              FloatPayload(s, digits).value == [Decimal, Pow2(digits - 1) as int] + FloatPayload(s[1..], digits).value
  {
  }

  /** Every character of `s` is a digit or a '.'. */
  predicate DigitsAndPoints(s: string) {
    forall i :: 0 <= i < |s| ==> s[i] == '.' || IsDigit(s[i])
  }

  /** The loop fails exactly when a character it reads is neither a digit
      nor a '.'. */
  lemma {:induction false} FloatPayloadSomeIff(s: string, digits: nat)
    requires digits < Width
    requires digits == 0 ==> s == [] || s[0] != '.'
    ensures FloatPayload(s, digits).Some? <==> DigitsAndPoints(Examined(s, Width - digits))
    decreases |s|
  {
    if s == [] {
    } else if s[0] == '.' {
      FloatPayloadSomeIff(s[1..], digits);
      FloatPayloadPointStep(s, digits);
      SomeIffStep(s, digits, digits);
    } else if IsDigit(s[0]) && digits + 1 < Width {
      FloatPayloadSomeIff(s[1..], digits + 1);
      FloatPayloadDigitStep(s, digits);
      SomeIffStep(s, digits, digits + 1);
    } else {
      SomeIffStop(s, digits);
    }
  }

  /** One step of FloatPayloadSomeIff: after a '.' or a digit that leaves
      positions free, the rest of the text decides. */
  lemma SomeIffStep(s: string, digits: nat, next: nat)
    requires s != [] && digits < Width && next < Width
    requires s[0] == '.' ==> next == digits && digits > 0
    requires s[0] != '.' ==> IsDigit(s[0]) && next == digits + 1
    requires FloatPayload(s, digits).Some? <==> FloatPayload(s[1..], next).Some?
    requires FloatPayload(s[1..], next).Some? <==> DigitsAndPoints(Examined(s[1..], Width - next))
    ensures FloatPayload(s, digits).Some? <==> DigitsAndPoints(Examined(s, Width - digits))
  {
    var e := Examined(s, Width - digits);
    assert e[0] == s[0] && e[1..] == Examined(s[1..], Width - next);
    DigitsAndPointsCons(e);
  }

  /** The loop's last step: a digit that fills the last position is sent and
      ends the loop; any other character fails. */
  lemma SomeIffStop(s: string, digits: nat)
    requires s != [] && s[0] != '.' && digits < Width
    requires IsDigit(s[0]) ==> digits + 1 >= Width
    ensures FloatPayload(s, digits).Some? <==> DigitsAndPoints(Examined(s, Width - digits))
  {
    var e := Examined(s, Width - digits);
    assert e[0] == s[0];
    if IsDigit(s[0]) {
      assert e == [s[0]];
    }
  }

  lemma DigitsAndPointsCons(e: string)
    requires e != []
    ensures DigitsAndPoints(e) <==> (e[0] == '.' || IsDigit(e[0])) && DigitsAndPoints(e[1..])
  {
    if (e[0] == '.' || IsDigit(e[0])) && DigitsAndPoints(e[1..]) {
      forall i | 0 < i < |e| ensures e[i] == '.' || IsDigit(e[i]) {
        assert e[i] == e[1..][i - 1];
      }
    }
  }

  /** The payload decodes to the text the loop read: digits and points in
      order, at most four digits. */
  lemma {:induction false} FloatPayloadDecodes(s: string, digits: nat)
    requires digits < Width
    requires digits == 0 ==> s == [] || s[0] != '.'
    requires FloatPayload(s, digits).Some?
    ensures DecodePayload(FloatPayload(s, digits).value, digits) == Some(Examined(s, Width - digits))
    decreases |s|
  {
    if s != [] {
      if s[0] == '.' {
        FloatPayloadDecodes(s[1..], digits);
        DecodesPoint(s, digits);
      } else if digits + 1 >= Width {
        DecodesLastDigit(s, digits);
      } else {
        FloatPayloadDecodes(s[1..], digits + 1);
        DecodesDigit(s, digits);
      }
    }
  }

  /** The step of FloatPayloadDecodes for a '.'. */
  lemma DecodesPoint(s: string, digits: nat)
    requires 1 <= digits < Width && s != [] && s[0] == '.'
    requires FloatPayload(s, digits).Some?
    requires DecodePayload(FloatPayload(s[1..], digits).value, digits) == Some(Examined(s[1..], Width - digits))
    ensures DecodePayload(FloatPayload(s, digits).value, digits) == Some(Examined(s, Width - digits))
  {
    var q := FloatPayload(s[1..], digits).value;
    var p := FloatPayload(s, digits).value;
    assert p == [Decimal, Pow2(digits - 1) as int] + q;
    assert p[2..] == q;
    assert DecodePayload(p, digits) == Some("." + Examined(s[1..], Width - digits));
  }

  /** The step of FloatPayloadDecodes for the digit that fills the last
      position. */
  lemma DecodesLastDigit(s: string, digits: nat)
    requires digits < Width && digits + 1 >= Width && s != [] && s[0] != '.'
    requires FloatPayload(s, digits).Some?
    ensures DecodePayload(FloatPayload(s, digits).value, digits) == Some(Examined(s, Width - digits))
  {
    var p := FloatPayload(s, digits).value;
    assert IsDigit(s[0]);
    assert p == [DigitValue(s[0]) as int];
    assert p[1..] == [];
    assert DigitChar(DigitValue(s[0])) == s[0];
    assert Examined(s[1..], 0) == [];
  }

  /** The step of FloatPayloadDecodes for a digit that leaves positions
      free. */
  lemma DecodesDigit(s: string, digits: nat)
    requires digits + 1 < Width && s != [] && s[0] != '.'
    requires FloatPayload(s, digits).Some?
    requires DecodePayload(FloatPayload(s[1..], digits + 1).value, digits + 1)
               == Some(Examined(s[1..], Width - digits - 1))
    ensures DecodePayload(FloatPayload(s, digits).value, digits) == Some(Examined(s, Width - digits))
  {
    var q := FloatPayload(s[1..], digits + 1).value;
    var p := FloatPayload(s, digits).value;
    assert IsDigit(s[0]);
    assert p == [DigitValue(s[0]) as int] + q;
    assert p[1..] == q;
    assert DigitChar(DigitValue(s[0])) == s[0];
  }

  /** Digits that fill the remaining positions are all that is sent: what
      follows them, a '.' included, is never read. */
  lemma {:induction false} FloatPayloadFills(ds: string, rest: string, digits: nat)
    requires digits < Width && digits + |ds| == Width && AllDigits(ds)
    ensures FloatPayload(ds + rest, digits) == Some(DigitValues(ds))
    decreases |ds|
  {
    var s := ds + rest;
    assert s[0] == ds[0];
    if digits + 1 < Width {
      assert s[1..] == ds[1..] + rest;
      FloatPayloadFills(ds[1..], rest, digits + 1);
      DigitValuesCons(ds);
    } else {
      DigitValuesCons(ds);
      assert DigitValues(ds[1..]) == [];
      assert DigitValues(ds) == [DigitValue(ds[0]) as int];
    }
  }

  /** Digits that leave positions free are sent as their values, and the
      loop carries on with what follows. */
  lemma {:induction false} FloatPayloadDigits(ds: string, rest: string, digits: nat)
    requires digits + |ds| < Width && AllDigits(ds)
    requires digits + |ds| == 0 ==> rest == [] || rest[0] != '.'
    ensures FloatPayload(ds + rest, digits).Some? <==> FloatPayload(rest, digits + |ds|).Some?
    ensures FloatPayload(ds + rest, digits).Some? ==>
              FloatPayload(ds + rest, digits).value == DigitValues(ds) + FloatPayload(rest, digits + |ds|).value
    decreases |ds|
  {
    if ds == [] {
      assert ds + rest == rest;
      assert DigitValues(ds) == [];
      if FloatPayload(rest, digits).Some? {
        var p := FloatPayload(rest, digits).value;
        assert [] + p == p;
      }
    } else {
      FloatPayloadDigits(ds[1..], rest, digits + 1);
      DigitsCons(ds, rest, digits);
    }
  }

  /** One step of FloatPayloadDigits: a leading digit goes in front of what
      the remaining digits send. */
  lemma DigitsCons(ds: string, rest: string, digits: nat)
    requires ds != [] && digits + |ds| < Width && AllDigits(ds)
    requires FloatPayload(ds[1..] + rest, digits + 1).Some? <==> FloatPayload(rest, digits + |ds|).Some?
    requires FloatPayload(ds[1..] + rest, digits + 1).Some? ==>
               FloatPayload(ds[1..] + rest, digits + 1).value == DigitValues(ds[1..]) + FloatPayload(rest, digits + |ds|).value
    ensures FloatPayload(ds + rest, digits).Some? <==> FloatPayload(rest, digits + |ds|).Some?
    ensures FloatPayload(ds + rest, digits).Some? ==>
              FloatPayload(ds + rest, digits).value == DigitValues(ds) + FloatPayload(rest, digits + |ds|).value
  {
    var s := ds + rest;
    assert s[0] == ds[0] && s[1..] == ds[1..] + rest;
    DigitValuesCons(ds);
    var v := DigitValue(ds[0]) as int;
    FloatPayloadDigitStep(s, digits);
    if FloatPayload(rest, digits + |ds|).Some? {
      var p := FloatPayload(rest, digits + |ds|).value;
      assert FloatPayload(s, digits).value == [v] + (DigitValues(ds[1..]) + p);
      ConcatAssoc([v], DigitValues(ds[1..]), p);
    }
  }

  /** With a four-digit integer part, only those four digits are sent: no
      decimal marker and no fraction digit. */
  lemma FullIntegerPartHasNoPoint(ip: string, rest: string)
    requires |ip| == Width && AllDigits(ip)
    ensures FloatPayload(ip + rest, 0) == Some(DigitValues(ip))
    ensures Decimal !in FloatPayload(ip + rest, 0).value
  {
    FloatPayloadFills(ip, rest, 0);
  }

  /** For a number with one to three integer digits, the payload is those
      digits, DECIMAL with the bit of the last integer digit, then as many
      fraction digits as fill the display. */
  lemma FloatPayloadWithPoint(ip: string, frac: string)
    requires 1 <= |ip| < Width && AllDigits(ip) && AllDigits(frac)
    ensures var room := Width - |ip|;
            var shown := if |frac| <= room then frac else frac[..room];
            FloatPayload(ip + "." + frac, 0) ==
              Some(DigitValues(ip) + [Decimal, Pow2(|ip| - 1) as int] + DigitValues(shown))
  {
    var room := Width - |ip|;
    var shown := if |frac| <= room then frac else frac[..room];
    var point := "." + frac;
    assert ip + "." + frac == ip + point;
    FloatPayloadDigits(ip, point, 0);
    assert point[1..] == frac;
    FloatPayloadPointStep(point, |ip|);
    FractionPayload(frac, |ip|);
    PayloadParts(FloatPayload(ip + point, 0), FloatPayload(point, |ip|), FloatPayload(frac, |ip|),
                 DigitValues(ip), [Decimal, Pow2(|ip| - 1) as int], DigitValues(shown));
  }

  /** Glues the three parts of a payload together. */
  lemma PayloadParts(p: Option<seq<int>>, q: Option<seq<int>>, r: Option<seq<int>>,
                     a: seq<int>, m: seq<int>, b: seq<int>)
    requires p.Some? <==> q.Some?
    requires p.Some? ==> p.value == a + q.value
    requires q.Some? <==> r.Some?
    requires q.Some? ==> q.value == m + r.value
    requires r == Some(b)
    ensures p == Some(a + m + b)
  {
    ConcatAssoc(a, m, b);
  }

  /** After the point, the fraction digits are sent until the display is
      full. */
  lemma FractionPayload(frac: string, digits: nat)
    requires 1 <= digits < Width && AllDigits(frac)
    ensures var room := Width - digits;
            FloatPayload(frac, digits) == Some(DigitValues(if |frac| <= room then frac else frac[..room]))
  {
    var room := Width - digits;
    if |frac| < room {
      assert frac + [] == frac;
      FloatPayloadDigits(frac, [], digits);
      assert DigitValues(frac) + [] == DigitValues(frac);
    } else {
      var shown := frac[..room];
      assert frac == shown + frac[room..];
      FloatPayloadFills(shown, frac[room..], digits);
      assert |frac| == room ==> shown == frac;
    }
  }

  /** SevenSegment.send_float on the text str(float_num); that text never
      starts with '.'. */
  function SendFloat(s: string): (t: Transmission)
    requires s == [] || s[0] != '.'
    ensures t == Rejected <==> |s| > Width && '.' !in s[..Width + 1]
    ensures t != Rejected ==> t.frames != [] && t.frames[0] == Xfer([Clear])
    ensures t != Rejected && t.raised.Some? ==> t == ClearedThenFailed
    ensures t != Rejected ==> (t.raised.None? <==> DigitsAndPoints(Examined(s, Width)))
    ensures t.raised.None? ==>
              && |t.frames| == 2 && t.frames[1].WriteBytes?
              && t == Sent(t.frames[1].data)
              && DecodePayload(t.frames[1].data, 0) == Some(Examined(s, Width))
  {
    FirstPieceLonger(s, '.', Width);
    FloatPayloadSomeIff(s, 0);
    if |SplitOn(s, '.')[0]| > Width then Rejected
    else
      match FloatPayload(s, 0)
      case None => ClearedThenFailed
      case Some(p) =>
        FloatPayloadDecodes(s, 0);
        Sent(p)
  }
}

=== FILE: thermometer.dfy ===
/** The DS18B20 one-wire thermometer driver: finding thermometer ids in the
    bus's device directory listing, choosing a thermometer and its device
    file, and reading the temperature from the two-line `w1_slave` text.
    The directory listing and the file's contents are inputs. */
module Thermometer {
  import opened Results
  import opened PyStr
  import opened PyInt

  /** Where the one-wire bus lists its devices; note the trailing '/'. */
  const BaseDir: string := "/sys/bus/w1/devices/"
  /** Directory-name prefix of the DS18B20 family (code 0x28). */
  const FamilyPrefix: string := "28-"
  /** The characters lstrip('28-') removes: a set, not a prefix. */
  const PrefixChars: set<char> := {'2', '8', '-'}
  const SlaveFile: string := "/w1_slave"

  /** The exceptions the driver lets escape: NoThermometerError is its own;
      IndexError and ValueError come from indexing and int() on a malformed
      device file. */
  datatype ThermError = NoThermometerError | IndexError | ValueError

  /** A constructed thermometer: its id and the device file it reads. */
  datatype Thermometer = Thermometer(thermId: string, deviceFile: string)

  predicate IsFamilyEntry(entry: string) {
    StartsWith(entry, FamilyPrefix)
  }

  /** The entries of a directory listing that name DS18B20 devices, in
      listing order. */
  function KeepFamily(listing: seq<string>): (kept: seq<string>)
    ensures |kept| <= |listing|
    ensures forall e :: e in kept <==> e in listing && IsFamilyEntry(e)
    ensures forall i :: 0 <= i < |kept| ==> IsFamilyEntry(kept[i])
  {
    if listing == [] then []
    else if IsFamilyEntry(listing[0]) then [listing[0]] + KeepFamily(listing[1..])
    else KeepFamily(listing[1..])
  }

  /** Filtering keeps the relative order of the listing: it distributes over
      concatenation. */
  lemma {:induction false} KeepFamilyAppend(a: seq<string>, b: seq<string>)
    ensures KeepFamily(a + b) == KeepFamily(a) + KeepFamily(b)
  {
    if a == [] {
      assert a + b == b;
    } else {
      assert (a + b)[1..] == a[1..] + b;
      KeepFamilyAppend(a[1..], b);
    }
  }

  /** The first entry kept is the first DS18B20 entry of the listing. */
  lemma {:induction false} KeepFamilyFirst(listing: seq<string>, j: nat)
    requires j < |listing| && IsFamilyEntry(listing[j])
    requires forall i :: 0 <= i < j ==> !IsFamilyEntry(listing[i])
    ensures KeepFamily(listing) != [] && KeepFamily(listing)[0] == listing[j]
  {
    if j > 0 {
      KeepFamilyFirst(listing[1..], j - 1);
    }
  }

  /** `id` is `entry` with its longest leading run of '2', '8' and '-'
      removed, which is what lstrip('28-') computes. */
  predicate IsLStrippedId(entry: string, id: string) {
    && |id| <= |entry|
    && id == entry[|entry| - |id|..]
    && (forall i :: 0 <= i < |entry| - |id| ==> entry[i] in PrefixChars)
    && (id == [] || id[0] !in PrefixChars)
  }

  /** Thermometer.get_thermometer_ids on a given listing: keep the entries
      starting with "28-", then apply lstrip('28-') to each. */
  function GetThermometerIds(listing: seq<string>): (ids: seq<string>)
    ensures |ids| == |KeepFamily(listing)|
    ensures forall i :: 0 <= i < |ids| ==> IsLStrippedId(KeepFamily(listing)[i], ids[i])
  {
    var kept := KeepFamily(listing);
    seq(|kept|, i requires 0 <= i < |kept| => LStrip(kept[i], PrefixChars))
  }

  /** Id discovery keeps the listing order: the ids of a concatenation are
      the ids of its parts, concatenated. */
  lemma GetThermometerIdsAppend(a: seq<string>, b: seq<string>)
    ensures GetThermometerIds(a + b) == GetThermometerIds(a) + GetThermometerIds(b)
  {
    KeepFamilyAppend(a, b);
    var ka := KeepFamily(a);
    var kab := KeepFamily(a + b);
    var l := GetThermometerIds(a + b);
    var r := GetThermometerIds(a) + GetThermometerIds(b);
    forall i | 0 <= i < |l| ensures l[i] == r[i] {
      if i < |ka| {
        assert kab[i] == ka[i];
      } else {
        assert kab[i] == KeepFamily(b)[i - |ka|];
      }
    }
  }

  /** The id lstrip('28-') yields puts "28-" back to the directory name
      exactly when the serial after "28-" is empty or does not itself start
      with '2', '8' or '-'. */
  lemma IdRestoresEntryIff(entry: string)
    requires IsFamilyEntry(entry)
    ensures FamilyPrefix + LStrip(entry, PrefixChars) == entry <==> (|entry| == 3 || entry[3] !in PrefixChars)
  {
    if |entry| == 3 || entry[3] !in PrefixChars {
      SerialKept(entry);
    } else {
      SerialShortened(entry);
    }
  }

  lemma SerialKept(entry: string)
    requires IsFamilyEntry(entry)
    requires |entry| == 3 || entry[3] !in PrefixChars
    ensures FamilyPrefix + LStrip(entry, PrefixChars) == entry
  {
    assert forall i :: 0 <= i < |FamilyPrefix| ==> FamilyPrefix[i] in PrefixChars;
    LStripPrefixRun(FamilyPrefix, entry, PrefixChars);
  }

  lemma SerialShortened(entry: string)
    requires IsFamilyEntry(entry)
    requires |entry| > 3 && entry[3] in PrefixChars
    ensures |LStrip(entry, PrefixChars)| < |entry| - 3
  {
    assert entry[..3] == FamilyPrefix;
    assert forall k :: 0 <= k < 4 ==> entry[k] in PrefixChars;
    LStripDropsRun(entry, PrefixChars, 4);
  }

  /** get_thermometer_ids as its docstring intends: each id is the entry
      without exactly its "28-" prefix. */
  function GetThermometerIdsExact(listing: seq<string>): (ids: seq<string>)
    ensures |ids| == |KeepFamily(listing)|
    ensures forall i :: 0 <= i < |ids| ==> FamilyPrefix + ids[i] == KeepFamily(listing)[i]
  {
    var kept := KeepFamily(listing);
    var ids := seq(|kept|, i requires 0 <= i < |kept| => kept[i][|FamilyPrefix|..]);
    assert forall i :: 0 <= i < |ids| ==> FamilyPrefix + ids[i] == kept[i] by {
      forall i | 0 <= i < |ids| ensures FamilyPrefix + ids[i] == kept[i] {
        PrefixThenRest(FamilyPrefix, kept[i]);
      }
    }
    ids
  }

  /** Every exact id names a directory of the listing. */
  lemma ExactIdInListing(listing: seq<string>, id: string)
    requires id in GetThermometerIdsExact(listing)
    ensures FamilyPrefix + id in listing
  {
    var ids := GetThermometerIdsExact(listing);
    var i :| 0 <= i < |ids| && ids[i] == id;
    assert KeepFamily(listing)[i] in KeepFamily(listing);
  }

  /** The device file the constructor builds:
      '{}/28-{}/w1_slave'.format(BASE_DIR, therm_id). */
  function DeviceFile(id: string): (path: string)
    ensures |path| == |id| + 33
    ensures path[..24] == "/sys/bus/w1/devices//28-"
    ensures path[24..|path| - 9] == id
    ensures path[|path| - 9..] == "/w1_slave"
  {
    BaseDir + "/" + FamilyPrefix + id + SlaveFile
  }

  /** The id a device-file path names, if it has the constructor's shape. */
  function DeviceId(path: string): Option<string> {
    var head := BaseDir + "/" + FamilyPrefix;
    if |path| >= |head| + |SlaveFile|
       && path[..|head|] == head
       && path[|path| - |SlaveFile|..] == SlaveFile
    then Some(path[|head|..|path| - |SlaveFile|])
    else None
  }

  /** The device file determines the id it was built from. */
  lemma DeviceIdOfFile(id: string)
    ensures DeviceId(DeviceFile(id)) == Some(id)
  {
    var head := BaseDir + "/" + FamilyPrefix;
    var p := DeviceFile(id);
    assert p == head + id + SlaveFile;
    assert p[..|head|] == head;
    assert p[|p| - |SlaveFile|..] == SlaveFile;
    assert p[|head|..|p| - |SlaveFile|] == id;
  }

  /** Every path of the device file's shape is the device file of the id it
      names. */
  lemma DeviceFileOfId(path: string)
    ensures DeviceId(path).Some? ==> DeviceFile(DeviceId(path).value) == path
  {
    var head := BaseDir + "/" + FamilyPrefix;
    if DeviceId(path).Some? {
      var mid := path[|head|..|path| - |SlaveFile|];
      assert path == path[..|head|] + mid + path[|path| - |SlaveFile|..];
    }
  }

  /** The id the constructor settles on, as written: an explicit id
      verbatim, otherwise element 0 of the discovered ids. */
  function SelectId(thermId: Option<string>, ids: seq<string>): Result<string, ThermError> {
    match thermId
    case Some(id) => Ok(id)
    case None => if |ids| == 0 then Err(NoThermometerError) else Ok(ids[0])
  }

  /** Thermometer(therm_id), the bus-module loading left out: choose the id,
      then build the device-file path. */
  function New(thermId: Option<string>, listing: seq<string>): (r: Result<Thermometer, ThermError>)
    ensures r.Err? <==> thermId.None? && forall e :: e in listing ==> !IsFamilyEntry(e)
    ensures r.Err? ==> r.error == NoThermometerError
    ensures thermId.Some? ==> r.Ok? && r.value.thermId == thermId.value
    ensures r.Ok? ==> r.value.deviceFile == DeviceFile(r.value.thermId)
    ensures r.Ok? ==> DeviceId(r.value.deviceFile) == Some(r.value.thermId)
  {
    var ids := GetThermometerIds(listing);
    assert ids != [] ==> KeepFamily(listing)[0] in KeepFamily(listing);
    match SelectId(thermId, ids)
    case Err(e) => Err(e)
    case Ok(id) => DeviceIdOfFile(id); Ok(Thermometer(id, DeviceFile(id)))
  }

  /** With no id given, the constructor takes the first DS18B20 entry in
      listing order, lstrip('28-') applied; no sorting takes place. */
  lemma NewPicksFirstListed(listing: seq<string>, j: nat)
    requires j < |listing| && IsFamilyEntry(listing[j])
    requires forall i :: 0 <= i < j ==> !IsFamilyEntry(listing[i])
    ensures New(None, listing).Ok?
    ensures New(None, listing).value.thermId == LStrip(listing[j], PrefixChars)
  {
    KeepFamilyFirst(listing, j);
  }

  /** Every DS18B20 serial that itself starts with '2', '8' or '-' is
      misread: the constructor's id is shorter than the serial, so the
      directory it names is not the one listed. */
  lemma NewMisreadsSerial(serial: string)
    requires serial != [] && serial[0] in PrefixChars
    ensures New(None, [FamilyPrefix + serial]).Ok?
    ensures |New(None, [FamilyPrefix + serial]).value.thermId| < |serial|
    ensures FamilyPrefix + New(None, [FamilyPrefix + serial]).value.thermId != FamilyPrefix + serial
  {
    var entry := FamilyPrefix + serial;
    assert entry[..|FamilyPrefix|] == FamilyPrefix && entry[3] == serial[0];
    NewPicksFirstListed([entry], 0);
    SerialShortened(entry);
  }

  /** A DS18B20 serial that starts with '8' loses that digit: the id the
      constructor picks names a device directory that is not on the bus. */
  lemma LStripMisreadsSerial()
    ensures New(None, ["28-8000001f2a3b"]) == Ok(Thermometer("000001f2a3b", DeviceFile("000001f2a3b")))
    ensures FamilyPrefix + "000001f2a3b" !in ["28-8000001f2a3b"]
  {
    var listing := ["28-8000001f2a3b"];
    NewPicksFirstListed(listing, 0);
    SerialLosesEight();
    var r := New(None, listing);
    assert r.value == Thermometer(r.value.thermId, r.value.deviceFile);
    assert |FamilyPrefix + "000001f2a3b"| != |listing[0]|;
  }

  lemma SerialLosesEight()
    ensures LStrip("28-8000001f2a3b", PrefixChars) == "000001f2a3b"
  {
    var entry := "28-8000001f2a3b";
    LStripUnique(entry, PrefixChars, 4);
    assert entry[4..] == "000001f2a3b";
  }

  /** Python's ordering of str values: by code point, a proper prefix first. */
  predicate LexLe(a: string, b: string) {
    if a == [] then true
    else if b == [] then false
    else if a[0] != b[0] then a[0] < b[0]
    else LexLe(a[1..], b[1..])
  }

  /** Python's `a <= b` on str, stated directly: `a` is a prefix of `b`, or
      at the first position where they differ `a` has the smaller code
      point. */
  predicate LexLeSpec(a: string, b: string) {
    || (|a| <= |b| && a == b[..|a|])
    || (exists k :: 0 <= k < |a| && k < |b| && a[..k] == b[..k] && a[k] < b[k])
  }

  /** LexLe is Python's str ordering. */
  lemma {:induction false} LexLeIff(a: string, b: string)
    ensures LexLe(a, b) <==> LexLeSpec(a, b)
    decreases |a|
  {
    if a == [] {
      assert a == b[..0];
    } else if b == [] {
    } else if a[0] != b[0] {
      if a[0] < b[0] {
        assert a[..0] == b[..0];
      }
      assert |a| <= |b| ==> b[..|a|][0] == b[0];
      forall k | 0 < k < |a| && k < |b| ensures a[..k][0] == a[0] && b[..k][0] == b[0] {
      }
    } else {
      var a', b' := a[1..], b[1..];
      LexLeIff(a', b');
      LexLeSpecCons(a, b);
    }
  }

  /** Dropping a common first character keeps LexLeSpec. */
  lemma LexLeSpecCons(a: string, b: string)
    requires a != [] && b != [] && a[0] == b[0]
    ensures LexLeSpec(a, b) <==> LexLeSpec(a[1..], b[1..])
  {
    PrefixCons(a, b);
    FirstDifferenceCons(a, b);
  }

  lemma PrefixCons(a: string, b: string)
    requires a != [] && b != [] && a[0] == b[0]
    ensures (|a| <= |b| && a == b[..|a|]) <==> (|a| - 1 <= |b| - 1 && a[1..] == b[1..][..|a| - 1])
  {
    if |a| <= |b| {
      assert b[..|a|] == [b[0]] + b[1..][..|a| - 1];
      assert a == [a[0]] + a[1..];
    }
  }

  lemma FirstDifferenceCons(a: string, b: string)
    requires a != [] && b != [] && a[0] == b[0]
    ensures (exists k :: 0 <= k < |a| && k < |b| && a[..k] == b[..k] && a[k] < b[k])
        <==> (exists k :: 0 <= k < |a[1..]| && k < |b[1..]| && a[1..][..k] == b[1..][..k] && a[1..][k] < b[1..][k])
  {
    var a', b' := a[1..], b[1..];
    if k :| 0 <= k < |a| && k < |b| && a[..k] == b[..k] && a[k] < b[k] {
      if k == 0 {
        assert false;
      }
      assert a'[..k - 1] == a[..k][1..] && b'[..k - 1] == b[..k][1..];
      assert a'[k - 1] < b'[k - 1];
    }
    if k :| 0 <= k < |a'| && k < |b'| && a'[..k] == b'[..k] && a'[k] < b'[k] {
      assert a[..k + 1] == [a[0]] + a'[..k] && b[..k + 1] == [b[0]] + b'[..k];
      assert a[k + 1] < b[k + 1];
    }
  }

  lemma {:induction false} LexLeTotal(a: string, b: string)
    ensures LexLe(a, b) || LexLe(b, a)
  {
    if a != [] && b != [] && a[0] == b[0] {
      LexLeTotal(a[1..], b[1..]);
    }
  }

  lemma {:induction false} LexLeTransitive(a: string, b: string, c: string)
    requires LexLe(a, b) && LexLe(b, c)
    ensures LexLe(a, c)
  {
    if a != [] && b != [] && c != [] && a[0] == b[0] && b[0] == c[0] {
      LexLeTransitive(a[1..], b[1..], c[1..]);
    }
  }

  lemma {:induction false} LexLeReflexive(a: string)
    ensures LexLe(a, a)
  {
    if a != [] {
      LexLeReflexive(a[1..]);
    }
  }

  /** min(ids): the first id in lexicographical order. */
  function LexMin(ids: seq<string>): (m: string)
    requires ids != []
    ensures m in ids
    ensures forall x :: x in ids ==> LexLe(m, x)
  {
    if |ids| == 1 then LexLeReflexive(ids[0]); ids[0]
    else
      var rest := LexMin(ids[1..]);
      LexLeTotal(ids[0], rest);
      LexLeReflexive(ids[0]);
      var m := if LexLe(ids[0], rest) then ids[0] else rest;
      assert forall x :: x in ids[1..] ==> LexLe(m, x) by {
        forall x | x in ids[1..] ensures LexLe(m, x) {
          if m == ids[0] {
            LexLeTransitive(m, rest, x);
          }
        }
      }
      assert forall x :: x in ids ==> x == ids[0] || x in ids[1..] by {
        forall x | x in ids ensures x == ids[0] || x in ids[1..] {
          var k :| 0 <= k < |ids| && ids[k] == x;
          if k > 0 {
            assert ids[1..][k - 1] == x;
          }
        }
      }
      m
  }

  /** The constructor as its docstring intends: with no id given, the first
      thermometer in lexicographical order, its id the entry without exactly
      the "28-" prefix. */
  function NewCorrected(thermId: Option<string>, listing: seq<string>): (r: Result<Thermometer, ThermError>)
    ensures r.Err? <==> thermId.None? && forall e :: e in listing ==> !IsFamilyEntry(e)
    ensures r.Err? ==> r.error == NoThermometerError
    ensures thermId.Some? ==> r.Ok? && r.value.thermId == thermId.value
    ensures r.Ok? ==> DeviceId(r.value.deviceFile) == Some(r.value.thermId)
    ensures thermId.None? && r.Ok? ==>
              && FamilyPrefix + r.value.thermId in listing
              && forall id :: id in GetThermometerIdsExact(listing) ==> LexLe(r.value.thermId, id)
  {
    match thermId
    case Some(id) => DeviceIdOfFile(id); Ok(Thermometer(id, DeviceFile(id)))
    case None =>
      var ids := GetThermometerIdsExact(listing);
      if ids == [] then Err(NoThermometerError)
      else
        var id := LexMin(ids);
        ExactIdInListing(listing, id);
        DeviceIdOfFile(id);
        Ok(Thermometer(id, DeviceFile(id)))
  }

  /** Whenever the first of two listed thermometers does not come first in
      lexicographical order, the constructor as written picks it anyway,
      while the corrected constructor picks the other one. */
  lemma ListingOrderIsNotLexOrder(a: string, b: string)
    requires a != [] && a[0] !in PrefixChars
    requires !LexLe(a, b)
    ensures New(None, [FamilyPrefix + a, FamilyPrefix + b]) == Ok(Thermometer(a, DeviceFile(a)))
    ensures NewCorrected(None, [FamilyPrefix + a, FamilyPrefix + b]) == Ok(Thermometer(b, DeviceFile(b)))
  {
    ListedFirstPicked(a, b);
    CorrectedPicksLeast(a, b);
  }

  lemma ListedFirstPicked(a: string, b: string)
    requires a != [] && a[0] !in PrefixChars
    ensures New(None, [FamilyPrefix + a, FamilyPrefix + b]) == Ok(Thermometer(a, DeviceFile(a)))
  {
    var listing := [FamilyPrefix + a, FamilyPrefix + b];
    assert listing[0][..3] == FamilyPrefix && listing[0][3] == a[0];
    NewPicksFirstListed(listing, 0);
    SerialKept(listing[0]);
    var r := New(None, listing);
    assert r.value == Thermometer(r.value.thermId, r.value.deviceFile);
  }

  lemma CorrectedPicksLeast(a: string, b: string)
    requires !LexLe(a, b)
    ensures NewCorrected(None, [FamilyPrefix + a, FamilyPrefix + b]) == Ok(Thermometer(b, DeviceFile(b)))
  {
    var listing := [FamilyPrefix + a, FamilyPrefix + b];
    assert IsFamilyEntry(listing[0]) && IsFamilyEntry(listing[1]);
    var ids := GetThermometerIdsExact(listing);
    KeepFamilyPair(listing);
    PrefixCancels(FamilyPrefix, ids[0], a);
    PrefixCancels(FamilyPrefix, ids[1], b);
    var m := LexMin(ids);
    assert m == ids[0] || m == ids[1];
    assert m == b;
  }

  /** A listing of two DS18B20 entries keeps both. */
  lemma KeepFamilyPair(listing: seq<string>)
    requires |listing| == 2 && IsFamilyEntry(listing[0]) && IsFamilyEntry(listing[1])
    ensures |KeepFamily(listing)| == 2
    ensures KeepFamily(listing)[0] == listing[0] && KeepFamily(listing)[1] == listing[1]
  {
    var tail := listing[1..];
    assert tail[0] == listing[1] && tail[1..] == [];
  }

  lemma PrefixCancels(p: string, x: string, y: string)
    requires p + x == p + y
    ensures x == y
  {
    assert x == (p + x)[|p|..];
    assert y == (p + y)[|p|..];
  }

  /** The constructor as written picks the first listed thermometer even
      when another one on the bus comes first in lexicographical order. */
  lemma FirstListedIsNotLeast()
    ensures New(None, ["28-0516a2795cff", "28-0316a27e4aff"])
              == Ok(Thermometer("0516a2795cff", DeviceFile("0516a2795cff")))
    ensures FamilyPrefix + "0316a27e4aff" in ["28-0516a2795cff", "28-0316a27e4aff"]
    ensures !LexLe("0516a2795cff", "0316a27e4aff")
  {
    FirstListedPicked();
    SecondListed();
    LaterSerialIsLess();
  }

  lemma SecondListed()
    ensures FamilyPrefix + "0316a27e4aff" in ["28-0516a2795cff", "28-0316a27e4aff"]
  {
    var listing := ["28-0516a2795cff", "28-0316a27e4aff"];
    assert FamilyPrefix + "0316a27e4aff" == listing[1];
  }

  lemma FirstListedPicked()
    ensures New(None, ["28-0516a2795cff", "28-0316a27e4aff"])
              == Ok(Thermometer("0516a2795cff", DeviceFile("0516a2795cff")))
  {
    var listing := ["28-0516a2795cff", "28-0316a27e4aff"];
    NewPicksFirstListed(listing, 0);
    SerialOfFirst();
    var r := New(None, listing);
    assert r.value == Thermometer(r.value.thermId, r.value.deviceFile);
  }

  lemma SerialOfFirst()
    ensures LStrip("28-0516a2795cff", PrefixChars) == "0516a2795cff"
  {
    var entry := "28-0516a2795cff";
    SerialKept(entry);
    assert FamilyPrefix + "0516a2795cff" == entry;
  }

  lemma LaterSerialIsLess()
    ensures !LexLe("0516a2795cff", "0316a27e4aff")
  {
    assert "0516a2795cff"[1..] == "516a2795cff";
    assert "0316a27e4aff"[1..] == "316a27e4aff";
  }

  /** A reading in millidegrees as degrees Celsius: the division by 10**3,
      exact. */
  function Celsius(milli: int): (c: real)
    ensures c * 1000.0 == milli as real
  {
    milli as real / 1000.0
  }

  /** f.readlines() on the device file opened in text mode. */
  function FileLines(content: string): (lines: seq<string>)
    ensures Concat(lines) == UniversalNewlines(content)
    ensures forall i :: 0 <= i < |lines| ==> IsLine(lines[i]) && (i < |lines| - 1 ==> lines[i][|lines[i]| - 1] == '\n')
    ensures lines == [] <==> content == []
  {
    ConcatReadLines(UniversalNewlines(content));
    ReadLines(UniversalNewlines(content))
  }

  /** lines[0].strip().split()[-1] == 'YES': the CRC verdict on the first
      line. None stands for the IndexError of a blank line. */
  function ReadyFlag(line: string): (flag: Option<bool>)
    ensures flag.None? <==> Strip(line) == []
  {
    var t := Strip(line);
    assert t != [] ==> t[0] !in Whitespace;
    var words := Split(t);
    if words == [] then None else Some(words[|words| - 1] == "YES")
  }

  /** The word the device writes for a good CRC. */
  const Yes: string := "YES"
  /** The word the device writes for a bad CRC. */
  const No: string := "NO"

  lemma FlagWordsAreWords()
    ensures forall i :: 0 <= i < |Yes| ==> Yes[i] !in Whitespace
    ensures forall i :: 0 <= i < |No| ==> No[i] !in Whitespace
  {
    assert forall i :: 0 <= i < |Yes| ==> Yes[i] in "YES";
    assert forall i :: 0 <= i < |No| ==> No[i] in "NO";
  }

  /** The first line's flag is missing exactly on a blank line. */
  lemma ReadyFlagNoneIff(line: string)
    ensures ReadyFlag(line).None? <==> forall i :: 0 <= i < |line| ==> line[i] in Whitespace
  {
    StripEmptyIff(line);
  }

  /** The first line's flag is true exactly when the stripped line ends with
      the word "YES". */
  lemma ReadyFlagYesIff(line: string)
    ensures ReadyFlag(line) == Some(true) <==> EndsWithRun(Strip(line), Yes, Whitespace)
  {
    var t := Strip(line);
    if t != [] {
      assert t[|t| - 1] !in Whitespace;
      FlagWordsAreWords();
      SplitRunsLastIff(t, Yes, Whitespace);
    }
  }

  /** When the stripped first line ends with a word, that word decides the
      flag. */
  lemma ReadyFlagLastWord(line: string, w: string)
    requires w != [] && forall i :: 0 <= i < |w| ==> w[i] !in Whitespace
    requires EndsWithRun(Strip(line), w, Whitespace)
    ensures ReadyFlag(line) == Some(w == Yes)
  {
    var t := Strip(line);
    assert t != [] && t[|t| - 1] !in Whitespace;
    SplitRunsLastIff(t, w, Whitespace);
  }

  /** lines[1].strip().split('=')[1]: the text between the first and the
      second '=' of the stripped second line; None stands for the IndexError
      of a line without '='. */
  function SecondField(line: string): (field: Option<string>)
    ensures field.None? <==> '=' !in Strip(line)
    ensures field.Some? ==> '=' !in field.value
  {
    var parts := SplitOn(Strip(line), '=');
    if |parts| < 2 then None else Some(parts[1])
  }

  /** The field is what stands between the first '=' and the next '=' or
      the end of the stripped line. */
  lemma SecondFieldBetween(line: string, a: string, b: string, c: string)
    requires Strip(line) == a + "=" + (b + c)
    requires '=' !in a && '=' !in b
    requires c == [] || c[0] == '='
    ensures SecondField(line) == Some(b)
  {
    SplitOnSecond(a, b, c, '=');
  }

  /** The reading of the second line, in millidegrees: int() of its second
      field. */
  function LineTwoMilli(line: string): (r: Result<int, ThermError>)
    ensures r == Err(IndexError) <==> '=' !in Strip(line)
    ensures r.Err? ==> r.error == IndexError || r.error == ValueError
    ensures r.Ok? ==> ParseInt(SecondField(line).value) == Some(r.value)
    ensures SecondField(line).Some? && ParseInt(SecondField(line).value).Some? ==>
              r == Ok(ParseInt(SecondField(line).value).value)
  {
    match SecondField(line)
    case None => Err(IndexError)
    case Some(field) =>
      match ParseInt(field)
      case None => Err(ValueError)
      case Some(v) => Ok(v)
  }

  /** Thermometer.get_temperature: `content` is the device file's text, or
      None when the file does not exist. Ok(None) means "not ready"; a
      reading is in millidegrees. */
  function GetTemperature(content: Option<string>): (r: Result<Option<int>, ThermError>)
    ensures r == Err(NoThermometerError) <==> content.None?
    ensures content == Some([]) ==> r == Err(IndexError)
    ensures r.Ok? && r.value.Some? ==>
              |FileLines(content.value)| >= 2 && ReadyFlag(FileLines(content.value)[0]) == Some(true)
    ensures content.Some? ==>
              (r == Ok(None) <==>
                 FileLines(content.value) != [] && ReadyFlag(FileLines(content.value)[0]) == Some(false))
    ensures r.Ok? && r.value.Some? ==> LineTwoMilli(FileLines(content.value)[1]) == Ok(r.value.value)
    ensures content.Some? && |FileLines(content.value)| >= 2
            && ReadyFlag(FileLines(content.value)[0]) == Some(true)
            && LineTwoMilli(FileLines(content.value)[1]).Ok? ==>
              r == Ok(Some(LineTwoMilli(FileLines(content.value)[1]).value))
    ensures content.Some? && FileLines(content.value) != []
            && ReadyFlag(FileLines(content.value)[0]).None? ==>
              r == Err(IndexError)
    ensures content.Some? && |FileLines(content.value)| == 1
            && ReadyFlag(FileLines(content.value)[0]) == Some(true) ==>
              r == Err(IndexError)
    ensures content.Some? && |FileLines(content.value)| >= 2
            && ReadyFlag(FileLines(content.value)[0]) == Some(true)
            && LineTwoMilli(FileLines(content.value)[1]).Err? ==>
              r == Err(LineTwoMilli(FileLines(content.value)[1]).error)
  {
    match content
    case None => Err(NoThermometerError)
    case Some(text) =>
      var lines := FileLines(text);
      if lines == [] then Err(IndexError)
      else
        match ReadyFlag(lines[0])
        case None => Err(IndexError)
        case Some(ready) =>
          if !ready then Ok(None)
          else if |lines| < 2 then Err(IndexError)
          else
            match LineTwoMilli(lines[1])
            case Err(e) => Err(e)
            case Ok(milli) => Ok(Some(milli))
  }

  /** When the first line's verdict is not YES, the reading is "not ready",
      whatever follows. */
  lemma NotReadyIgnoresRest(line: string, rest: string)
    requires IsLine(line) && line[|line| - 1] == '\n' && '\r' !in line
    requires ReadyFlag(line) == Some(false)
    ensures GetTemperature(Some(line + rest)) == Ok(None)
  {
    UniversalNewlinesPrefix(line, rest);
    ReadLinesCons(line, UniversalNewlines(rest));
  }

  /** Shape of the bytes field the device writes: non-empty, starting with a
      non-space, on one line, without '='. */
  predicate IsRawField(raw: string) {
    raw != [] && raw[0] !in Whitespace && '\n' !in raw && '\r' !in raw && '=' !in raw
  }

  /** First line of a device file: the bytes, the CRC and its verdict. */
  function LineOne(raw: string, crc: string, valid: bool): string {
    raw + " : crc=" + crc + [' '] + (if valid then Yes else No)
  }

  /** Second line of a device file: the bytes and the reading. */
  function LineTwo(raw: string, milli: int): string {
    raw + " t" + "=" + IntToString(milli)
  }

  /** The two-line text a DS18B20 device file holds. */
  function SlaveText(raw: string, crc: string, valid: bool, milli: int): string {
    LineOne(raw, crc, valid) + "\n" + LineTwo(raw, milli) + "\n"
  }

  lemma LineOneFlag(raw: string, crc: string, valid: bool)
    requires IsRawField(raw)
    ensures ReadyFlag(LineOne(raw, crc, valid) + "\n") == Some(valid)
  {
    var flag := if valid then Yes else No;
    var pre := raw + " : crc=" + crc;
    var one := LineOne(raw, crc, valid);
    assert one == pre + [' '] + flag;
    FlagWordsAreWords();
    assert one[0] == raw[0];
    assert flag[|flag| - 1] !in Whitespace;
    assert one[|one| - 1] == flag[|flag| - 1];
    StripLine(one);
    WhitespaceIsSpace(' ');
    RunAfterSeparator(pre, ' ', flag, Whitespace);
    ReadyFlagLastWord(one + "\n", flag);
    assert (flag == Yes) == valid;
  }

  lemma LineTwoReading(raw: string, milli: int)
    requires IsRawField(raw)
    ensures LineTwoMilli(LineTwo(raw, milli) + "\n") == Ok(milli)
  {
    LineTwoStrip(raw, milli);
    LineTwoField(raw, milli);
    ParseIntRoundTrip(milli);
  }

  /** strip() keeps the second line whole and drops its line break. */
  lemma LineTwoStrip(raw: string, milli: int)
    requires raw != [] && raw[0] !in Whitespace
    ensures Strip(LineTwo(raw, milli) + "\n") == LineTwo(raw, milli)
  {
    var digits := IntToString(milli);
    var two := LineTwo(raw, milli);
    assert two[0] == raw[0];
    assert two[|two| - 1] == digits[|digits| - 1];
    NotSpace(digits[|digits| - 1]);
    StripLine(two);
  }

  /** The field after the second line's '=' is the reading's text. */
  lemma LineTwoField(raw: string, milli: int)
    requires '=' !in raw
    requires Strip(LineTwo(raw, milli) + "\n") == LineTwo(raw, milli)
    ensures SecondField(LineTwo(raw, milli) + "\n") == Some(IntToString(milli))
  {
    LineTwoParts(raw, milli);
    SecondFieldBetween(LineTwo(raw, milli) + "\n", raw + " t", IntToString(milli), []);
  }

  /** The second line is its head, '=' and the reading's text, and only the
      '=' between them is one. */
  lemma LineTwoParts(raw: string, milli: int)
    requires '=' !in raw
    ensures LineTwo(raw, milli) == (raw + " t") + "=" + (IntToString(milli) + [])
    ensures '=' !in raw + " t" && '=' !in IntToString(milli)
  {
    var digits := IntToString(milli);
    var head := raw + " t";
    IntToStringChars(milli, '=');
    forall i | 0 <= i < |head| ensures head[i] != '=' {
      if i < |raw| {
        assert head[i] == raw[i];
      }
    }
    assert digits + [] == digits;
  }

  lemma LinesAreSingle(raw: string, crc: string, valid: bool, milli: int)
    requires IsRawField(raw)
    requires '\n' !in crc && '\r' !in crc
    ensures '\n' !in LineOne(raw, crc, valid) && '\r' !in LineOne(raw, crc, valid)
    ensures '\n' !in LineTwo(raw, milli) && '\r' !in LineTwo(raw, milli)
  {
    LineOneSingle(raw, crc, valid);
    LineTwoSingle(raw, milli);
  }

  lemma LineOneSingle(raw: string, crc: string, valid: bool)
    requires '\n' !in raw && '\r' !in raw
    requires '\n' !in crc && '\r' !in crc
    ensures '\n' !in LineOne(raw, crc, valid) && '\r' !in LineOne(raw, crc, valid)
  {
    var flag := if valid then Yes else No;
    assert '\n' !in flag && '\r' !in flag;
    assert LineOne(raw, crc, valid) == raw + " : crc=" + crc + [' '] + flag;
  }

  lemma LineTwoSingle(raw: string, milli: int)
    requires '\n' !in raw && '\r' !in raw
    ensures '\n' !in LineTwo(raw, milli) && '\r' !in LineTwo(raw, milli)
  {
    IntToStringChars(milli, '\n');
    IntToStringChars(milli, '\r');
  }

  /** Reading a device file back: a valid CRC yields the recorded reading,
      an invalid one yields "not ready". */
  lemma SlaveTextReading(raw: string, crc: string, valid: bool, milli: int)
    requires IsRawField(raw)
    requires '\n' !in crc && '\r' !in crc
    ensures GetTemperature(Some(SlaveText(raw, crc, valid, milli))) ==
              if valid then Ok(Some(milli)) else Ok(None)
  {
    var one := LineOne(raw, crc, valid);
    var two := LineTwo(raw, milli);
    LinesAreSingle(raw, crc, valid, milli);
    ReadTwoLines(one, two);
    LineOneFlag(raw, crc, valid);
    LineTwoReading(raw, milli);
  }
}
